=== FILE: README.md ===
# Security camera floor-plan editor — a Dafny model

The application is a single-page editor for a building's floor plan. It
holds a list of security cameras and a list of rectangular areas (sectors),
both placed on the plan in percentages of its width and height. The user
can zoom the plan, draw new areas with a rubber band in mapping mode, drag
camera markers, and select a camera or an area. A detail panel then edits
the selected item, and deleting it takes two clicks. A device list shows
per-status counters and a case-insensitive name filter.

This project models that core as pure functions over immutable data:

- `types.dfy` (module `Types`): the record shapes of a camera, an area and
  the statistics, the four camera statuses, and the documented numeric
  domains of a camera.
- `entities.dfy` (module `Entities`): the id-keyed list operations the
  application uses on both lists. These are `filter`, `find` and the
  replace-by-id `map`, written once, generic in the element type.
- `text.dfy` (module `Text`): `toLowerCase`, `includes`, and the decimal
  rendering of a number inside a template literal.
- `store.dfy` (module `Store`): the application scene and its handlers
  (update, delete, add, select, close). It also holds the derived views:
  the selected item, the statistics and the filtered list.
- `mapview.dfy` (module `MapView`): the plan surface as a state machine
  over `View` (scene plus gesture state). It covers wheel and button zoom,
  pointer-to-percentage conversion, the rubber band, camera dragging and
  the end-of-gesture reset.
- `sidebar.dfy` (module `Sidebar`): the detail panel. It covers which item
  is shown, the `showConfirm` machine with its two reset paths, and the
  single-field edit handlers with the slider bounds.
- `session.dfy` (module `Session`): everything wired together as one event
  machine. Its invariants hold for every event sequence from start-up.

Effects that are not logic become explicit inputs:

- The random ids of a new camera and a new area are event parameters.
- The installation date (`toLocaleDateString`) is an event parameter.
- The plan's bounding box is an event parameter, and `None` stands for a
  plan that is not rendered.
- The 3-second confirmation timer is a discrete `Timeout` event.
- The window-level `mouseup` listener is a `PointerUp` event that can
  occur at any time.

## Model

| member | source | states |
|---|---|---|
| Types.ParseStatus | types.ts:2 | A string is a camera status exactly when it is one of the four literals, and the status read back spells that literal |
| Types.StatusNameRoundTrip | types.ts:2 | The four status literals are distinct: each status's literal reads back as that status |
| Entities.Filter | App.tsx:80 | `filter` keeps exactly the elements satisfying the predicate, in their original order; its length is the number of satisfying elements |
| Entities.FilterKeepsAll | App.tsx:57 | A filter that rejects nothing returns its input unchanged |
| Entities.Find | App.tsx:38-41 | `find` by id returns an element exactly when some element has that id, and the one it returns is the first with that id |
| Entities.FindUnique | App.tsx:38-41 | When ids are unique, `find` returns the only element carrying the id |
| Entities.ReplaceById | App.tsx:75 | The replace-by-id `map` keeps the length, puts the new element wherever the id matches and leaves every other position alone |
| Entities.ReplaceKeepsIds | App.tsx:75 | Replacing by id never changes the id at any position, so unique ids stay unique |
| Entities.ReplaceIdempotent | App.tsx:75 | Replacing by the same element twice equals replacing once |
| Entities.ReplaceUnknownIsNoop | App.tsx:75 | Replacing with an id that is absent leaves the list unchanged |
| Entities.FindAfterReplace | App.tsx:75 | After a replace with a present id, `find` on that id yields the new element |
| Entities.RemoveById | App.tsx:80 | Removing by id yields an order-preserving sublist with no element of that id that keeps every other element |
| Entities.RemoveUnknownIsNoop | App.tsx:80 | Removing an absent id leaves the list unchanged |
| Entities.RemoveUndoesAppend | App.tsx:80 | Removing the id of an element just appended under a fresh id restores the original list |
| Entities.FindAppended | App.tsx:110 | An element appended under an id not yet present is exactly what the lookup by that id returns |
| Entities.AppendFresh | App.tsx:110 | Appending an element whose id is absent keeps ids unique |
| Entities.RemoveKeepsUnique | App.tsx:91 | Removing by id keeps ids unique |
| Entities.SubsequenceKeepsUnique | App.tsx:91 | Every order-preserving sublist of a list with unique ids has unique ids |
| Entities.SubsequenceMembers | App.tsx:91 | Every element of an order-preserving sublist is an element of the list |
| Entities.CountComplement | App.tsx:80 | The elements with an id and those without it together account for the whole list |
| Text.LowerChar | App.tsx:57 | `toLowerCase` on a character never yields a capital, fixes non-capitals and moves a capital by 32 code points |
| Text.LowerIdempotent | App.tsx:57 | Lower-casing an already lower-cased string changes nothing |
| Text.IncludesIffOccurs | App.tsx:57 | The left-to-right `includes` scan succeeds exactly when the needle occurs at some index of the haystack |
| Text.IncludesEmpty | App.tsx:57 | Every string includes the empty string |
| Text.DecimalString | components/MapView.tsx:137 | The rendering of a count is a non-empty run of decimal digits without a leading zero |
| Text.DecimalRoundTrip | components/MapView.tsx:137 | Reading the rendered digits back gives the number rendered |
| Text.DecimalStringInjective | components/MapView.tsx:137 | Different counts give different area names |
| Store.Init | App.tsx:9-32 | The application opens with nothing selected, no areas, an empty search term, zoom 100, and exactly one camera, which lies inside the documented domains |
| Store.SelectCamera | App.tsx:121-124 | Selecting a camera fills the camera slot and empties the area slot, leaving the lists, the zoom and the search term alone |
| Store.SelectArea | App.tsx:126-129 | Selecting an area fills the area slot and empties the camera slot, leaving the lists, the zoom and the search term alone |
| Store.Close | App.tsx:179-182 | Closing the panel empties both slots and leaves the lists alone |
| Store.UpdateCamera | App.tsx:74-76 | Updating a camera replaces exactly the entries with its id, is a no-op for an unknown id, makes the lookup by that id yield the new camera, and keeps selection and areas |
| Store.UpdateCameraIdempotent | App.tsx:74-76 | Applying the same camera update twice equals applying it once |
| Store.DeleteCamera | App.tsx:78-81 | Deleting a camera empties the camera slot unconditionally and leaves exactly the cameras with other ids, in order: an order-preserving sublist without the id that keeps every other camera and is shorter by the number of cameras carrying the id |
| Store.NewCamera | App.tsx:96-109 | A new camera is named `Nova Câmera ` followed by its id, is Active, has no observations, is installed on the given date, is never maintained, is centred at (50,50) facing 0 degrees with a 45-degree lens, reach 100 and icon size 40, and so lies inside every documented domain |
| Store.AddCamera | App.tsx:94-113 | Adding a camera appends it, keeps every camera inside the domains, selects it and empties the area slot; with a fresh id the panel looks up exactly the new camera |
| Store.DeleteUndoesAddCamera | App.tsx:78-113 | Deleting a just-added camera restores the camera list |
| Store.UpdateArea | App.tsx:83-85 | Updating an area replaces exactly the entries with its id, is a no-op for an unknown id and makes the lookup yield the new area |
| Store.UpdateAreaIdempotent | App.tsx:83-85 | Applying the same area update twice equals applying it once |
| Store.DeleteArea | App.tsx:87-92 | Deleting an area empties the area slot unconditionally and leaves exactly the areas with other ids, in order: an order-preserving sublist without the id that keeps every other area and is shorter by the number of areas carrying the id |
| Store.AddArea | App.tsx:115-119 | A committed area is appended with its colour forced to the default blue, becomes the selected area, and the camera slot is emptied |
| Store.DeleteUndoesAddArea | App.tsx:87-119 | Deleting a just-added area restores the area list |
| Store.SelectedCamera | App.tsx:38-41 | The panel's camera is the first listed camera with the selected id, and there is none exactly when nothing is selected or the id is not listed |
| Store.SelectedArea | App.tsx:43-46 | The panel's area is the first listed area with the selected id, and there is none exactly when nothing is selected or the id is not listed |
| Store.StatusCountsSum | App.tsx:48-54 | Every camera is counted under exactly one status |
| Store.ComputeStats | App.tsx:48-54 | The total is the number of cameras, each counter counts its status, and the four counters sum to the total |
| Store.CountAppend | App.tsx:50-53 | Appending a camera raises a status counter by one exactly when the camera has that status |
| Store.StatsAfterAddCamera | App.tsx:94-113 | A new camera raises the total and the Active counter by one and leaves the other counters unchanged |
| Store.FilteredCameras | App.tsx:56-59 | The device list holds, in order, exactly the cameras whose lower-cased name contains the lower-cased search term, each as many times as it occurs in the camera list |
| Store.EmptySearchListsAll | App.tsx:56-59 | An empty search term lists every camera |
| Store.SearchIgnoresCase | App.tsx:56-59 | A term and its lower-case form select the same cameras |
| MapView.InitialZoomOk | App.tsx:32 | The initial 100 % is a zoom level on the 25-step grid within [25,1000] |
| MapView.ZoomOut | components/MapView.tsx:180 | The minus button never goes below 25 and moves one 25-step down on the grid |
| MapView.ZoomIn | components/MapView.tsx:182 | The plus button never goes above 1000 and moves one 25-step up on the grid |
| MapView.ZoomButtonsInverse | components/MapView.tsx:180-182 | Away from the bounds, one step in and one step out cancel |
| MapView.WheelZoom | components/MapView.tsx:65-71 | Without ctrl or meta the wheel leaves the zoom alone; with one, the result stays in range and equals the minus button for a downward notch and the plus button otherwise |
| MapView.HandleWheel | components/MapView.tsx:65-71 | The wheel changes the zoom only and changes nothing without a modifier key; with ctrl or meta the zoom stays in range and, from a grid level, moves one 25-step down for a downward notch and one up otherwise |
| MapView.GetCoords | components/MapView.tsx:93-99 | Without a rendered plan the pointer maps to the origin; otherwise a coordinate is a percentage exactly when the pointer lies within the plan on that axis |
| MapView.ScaleInPercent | components/MapView.tsx:96-97 | An offset scaled to percent lies in [0,100] exactly when it lies within the box's extent |
| MapView.CoordsRoundTrip | components/MapView.tsx:93-99 | The pointer-to-percentage conversion is a bijection between client positions and plan percentages |
| MapView.Band | components/MapView.tsx:113-118 | The rubber band has non-negative size, and its edges on each axis are the anchor's and the pointer's coordinates |
| MapView.BandSymmetric | components/MapView.tsx:113-118 | Dragging from either corner gives the same rectangle |
| MapView.ClampPercent | components/MapView.tsx:126-127 | A dragged coordinate always lands on the plan and is unchanged when already on it |
| MapView.DragSelected | components/MapView.tsx:121-130 | Dragging writes the first camera with the selected id, moved to the clamped pointer, onto every camera carrying that id and leaves the other cameras alone; it is a no-op for an unlisted id and keeps domains and unique ids |
| MapView.MouseDown | components/MapView.tsx:101-107 | Outside mapping mode a press on the plan does nothing; in mapping mode it anchors a zero-size band at the pointer |
| MapView.MouseMove | components/MapView.tsx:109-131 | A move stretches an anchored band in mapping mode, and moves the selected camera while dragging with a non-empty selected id (the empty string is falsy); otherwise it changes nothing |
| MapView.NewArea | components/MapView.tsx:135-144 | A committed area takes the band's geometry, the `custom` type and the default colour; its name is `Novo Setor ` followed by the decimal digits of one more than the number of areas already present |
| MapView.MouseUp | components/MapView.tsx:133-150 | Releasing commits an area exactly when mapping mode is on and the band exceeds 0.5 in both axes, leaves mapping mode only then, and always ends the band and any drag |
| MapView.CameraDown | components/MapView.tsx:152-156 | Pressing a marker selects the camera, empties the area slot and starts the drag at once |
| MapView.AreaClick | components/MapView.tsx:158-161 | Clicking an area selects it, empties the camera slot and leaves the gesture alone |
| MapView.ToggleMapping | components/MapView.tsx:205 | The mapping button flips mapping mode and changes nothing else |
| MapView.Step | components/MapView.tsx:171-222 | The surface's wiring: only the wheel and the two zoom buttons change the zoom, the buttons being the one-step moves; only a move or the add button changes the cameras; only a release changes the areas; the wheel, the zoom buttons, area clicks and the add button leave the gesture alone |
| MapView.StepKeepsViewOk | components/MapView.tsx:65-161 | Every surface event keeps the selection exclusive, the zoom on its grid, cameras within their domains, areas above the size threshold and the band anchored |
| MapView.StepKeepsIdsUnique | components/MapView.tsx:133-150 | Surface events whose generated id is new keep camera ids and area ids unique |
| MapView.DragStartsImmediately | components/MapView.tsx:152-156 | After a press on a marker whose id is non-empty, the very first move brings that camera to the clamped pointer, with no hold delay, and leaves every other camera and area alone |
| MapView.EmptySelectionNeverDrags | components/MapView.tsx:121 | With the empty string as the selected camera id, a move never changes the scene |
| MapView.DrawArea | components/MapView.tsx:101-150 | Press, move and release in mapping mode append the band spanned by the two pointer positions as a new, selected area when it is large enough, and add nothing otherwise |
| Sidebar.Shown | components/SidebarRight.tsx:51-54 | The panel shows the camera when one is given, otherwise the area, and nothing exactly when neither is given |
| Sidebar.Observe | components/SidebarRight.tsx:38-41 | Re-rendering keeps the armed delete button only while the shown camera and area ids are unchanged; an empty panel holds no state |
| Sidebar.ObserveSettles | components/SidebarRight.tsx:38-41 | A second render with the same items changes nothing |
| Sidebar.SliderValue | components/SidebarRight.tsx:200-202 | A slider reports a value within its bounds, equal to the pointer's value when that lies within them and to the nearer bound otherwise |
| Sidebar.SetSlider | components/SidebarRight.tsx:149-152 | Each slider writes its own camera field and leaves every other field alone |
| Sidebar.ClickDelete | components/SidebarRight.tsx:57-72 | The first click only arms the button; a click while armed requests deletion of the camera or area shown |
| Sidebar.Handle | components/SidebarRight.tsx:43-152 | A hidden panel does nothing; only a delete click or the timer changes the armed state; only the close button closes; delete clicks and the timer never edit; a name, status or slider edit on a shown camera always emits a camera update, and a name or palette edit on a shown area always emits an area update, each naming the item shown, the camera taking precedence |
| Sidebar.DeleteNeedsConfirm | components/SidebarRight.tsx:57-72 | A deletion is only ever requested by a delete click on an armed panel, and it names the item shown |
| Sidebar.ArmingOnlyByClick | components/SidebarRight.tsx:43-49 | Only a delete click arms the panel, and the timer disarms a panel on screen |
| Sidebar.EditsChangeOneField | components/SidebarRight.tsx:103-152 | A camera update is emitted exactly for a name, status or slider edit while a camera is shown, and an area update exactly for a name or palette edit while only an area is shown; each emits the item shown with exactly the one field it drives replaced, a palette button setting the colour to that button's preset |
| Sidebar.EditsKeepDomains | components/SidebarRight.tsx:147-152 | Edits keep a camera within its documented domains and never move or resize an area |
| Session.InitialInv | App.tsx:27-32 | The application opens in a state satisfying the invariant |
| Session.Apply | App.tsx:171-183 | Each panel effect is exactly the scene handler it is bound to (camera and area update, camera and area delete, close), and no effect changes nothing; so updates keep both selection slots, deletes and close empty the slots they concern, only updates and deletes of a kind change that list, and exclusivity of the slots is kept |
| Session.Step | App.tsx:139-183 | Map events reach the surface, list rows select a camera, the search box sets the term, a panel event changes the scene by the effect the panel emits for the selected items and leaves the gesture alone, and after every event the panel is in step with the selected items |
| Session.ApplyKeepsViewOk | App.tsx:74-92 | Applying an update, delete or close keeps the scene invariants, provided an updated camera lies in its domains and an updated area keeps the minimum size |
| Session.PanelKeepsViewOk | components/SidebarRight.tsx:57-152 | Panel effects keep the scene invariant |
| Session.StepKeepsInv | App.tsx:139-183 | Every user event keeps the invariant |
| Session.RunKeepsInv | App.tsx:139-183 | Every sequence of user events keeps the invariant |
| Session.Reachable | App.tsx:121-129 | From start-up, whatever the user does, a camera and an area are never selected together, the zoom stays within [25,1000] on 25-steps, cameras stay within their domains and areas above 0.5 |
| Session.StepKeepsIdsUnique | App.tsx:94-119 | Every event whose generated id is new keeps ids unique |
| Session.RunKeepsIdsUnique | App.tsx:94-119 | Ids stay unique along any sequence of events whose generated ids are new |
| Session.DeleteCameraFlow | components/SidebarRight.tsx:43-72 | With a camera shown, one delete click only arms, a second click deletes it and closes the panel, and a timeout instead disarms and keeps it |
| Session.DeleteAreaFlow | components/SidebarRight.tsx:43-72 | The same two-click flow holds for a selected area |
| Session.SlideFlow | components/SidebarRight.tsx:149-152 | Moving a slider of the selected camera updates that camera in the scene with the clamped value through the camera update handler, and leaves the panel and gesture unchanged |
| Session.PickColorFlow | components/SidebarRight.tsx:137 | Picking a palette colour for the selected area updates that area in the scene to the preset colour through the area update handler, and leaves the panel and gesture unchanged |
| Session.SelectionChangeDisarms | components/SidebarRight.tsx:38-41 | Selecting a different camera from the list disarms the delete button |

## Left out

- Field-of-view drawing (the cone's trigonometry), status colours and all markup and styling are presentation only.
- Loading the plan image, its aspect ratio, `FileReader` and `localStorage` are I/O. The plan is modelled only through its bounding box.
- `Math.random().toString(36)` ids and `new Date().toLocaleDateString` are randomness and clock reads. They are event parameters, and the uniqueness lemmas assume the generated id is new.
- The 3000 ms `setTimeout` is the `Timeout` event. Its cancellation when the panel disarms or unmounts shows up as a `Timeout` that finds nothing to disarm.
- The window-level `mouseup` listener's registration is wiring. Every release is a `PointerUp` event.
- The area and field-of-view visibility toggles and the left sidebar's visibility toggle change only what is drawn.
- The header, the welcome screen and the device list's markup are out of scope. The list's row click (`ListSelect`) and search box (`SearchInput`) are modelled in `Session`.
- Text.LowerChar: `toLowerCase` is modelled for Basic Latin and Latin-1 capitals only, not the full Unicode case mapping.
- JavaScript numbers are `real` for positions and sizes and `int` for the slider-driven fields. Floating-point rounding is not modelled.
- MapView.GetCoords: a plan box of zero width or height is excluded by the `Box` type. In the application such a box would produce non-finite coordinates.
- Sidebar.SliderValue: the browser's `step` snapping is not modelled. The pointer value is taken as an integer.
- The status select can only produce the four literals, so the event carries a `CameraStatus` rather than a string.
- The `observations`, `installDate` and `lastMaintenance` fields are carried but never edited by the modelled handlers.

## Notes on the code as written

- A camera drag begins on the marker's mouse-down itself. There is no long press and no hold timer (`MapView.DragStartsImmediately`).
- `deleteCamera` and `deleteArea` empty their selection slot whatever id they delete.
- The zoom range is [25,1000] in steps of 25. The wheel clamps to both ends, and each button clamps to the end it moves toward.
- The application has no lock or view-only mode, no pan, no pinch zoom and no JSON import or export.

=== FILE: entities.dfy ===
/** Id-keyed sequences: the `filter`, `find` and replace-by-id `map` that the
    scene store applies to both its camera list and its area list. Each
    operation is generic in the element type and takes the id projection
    `key` as a parameter. */
module Entities {
  import opened Types

  /** `a` is obtained from `b` by deleting elements, keeping order. */
  predicate IsSubsequence<T(==)>(a: seq<T>, b: seq<T>)
    decreases |b|
  {
    || |a| == 0
    || (&& |b| > 0
        && ((a[0] == b[0] && IsSubsequence(a[1..], b[1..])) || IsSubsequence(a, b[1..])))
  }

  /** Number of elements satisfying `p`. */
  function Count<T>(xs: seq<T>, p: T -> bool): nat
  {
    if |xs| == 0 then 0 else (if p(xs[0]) then 1 else 0) + Count(xs[1..], p)
  }

  /** `Array.prototype.filter`: exactly the elements satisfying `p`, in order. */
  function Filter<T(==)>(xs: seq<T>, p: T -> bool): (r: seq<T>)
    ensures IsSubsequence(r, xs)
    ensures forall i :: 0 <= i < |r| ==> r[i] in xs && p(r[i])
    ensures forall i :: 0 <= i < |xs| && p(xs[i]) ==> xs[i] in r
    ensures |r| == Count(xs, p)
  {
    if |xs| == 0 then []
    else if p(xs[0]) then [xs[0]] + Filter(xs[1..], p)
    else Filter(xs[1..], p)
  }

  /** A filter that rejects nothing returns its input. */
  lemma {:induction false} FilterKeepsAll<T>(xs: seq<T>, p: T -> bool)
    requires forall i :: 0 <= i < |xs| ==> p(xs[i])
    ensures Filter(xs, p) == xs
  {
    if |xs| > 0 {
      FilterKeepsAll(xs[1..], p);
    }
  }

  predicate HasId<T>(xs: seq<T>, key: T -> Id, k: Id)
  {
    exists i :: 0 <= i < |xs| && key(xs[i]) == k
  }

  /** No id occurs twice. */
  predicate UniqueIds<T>(xs: seq<T>, key: T -> Id)
  {
    forall i, j :: 0 <= i < j < |xs| ==> key(xs[i]) != key(xs[j])
  }

  /** `Array.prototype.find` on the id: the first element whose id is `k`. */
  function Find<T(==)>(xs: seq<T>, key: T -> Id, k: Id): (r: Option<T>)
    ensures r.Some? <==> HasId(xs, key, k)
    ensures r.Some? ==> exists i :: 0 <= i < |xs| && xs[i] == r.value && key(xs[i]) == k && !HasId(xs[..i], key, k)
  {
    if |xs| == 0 then None
    else if key(xs[0]) == k then
      assert xs[..0] == [];
      Some(xs[0])
    else
      var r := Find(xs[1..], key, k);
      assert HasId(xs, key, k) ==> HasId(xs[1..], key, k) by {
        if HasId(xs, key, k) {
          var i :| 0 <= i < |xs| && key(xs[i]) == k;
          assert xs[1..][i - 1] == xs[i];
        }
      }
      if r.Some? then
        var i :| 0 <= i < |xs[1..]| && xs[1..][i] == r.value && key(xs[1..][i]) == k && !HasId(xs[1..][..i], key, k);
        assert xs[..i + 1] == [xs[0]] + xs[1..][..i];
        r
      else r
  }

  /** In a list without duplicate ids the element found is the only one with that id. */
  lemma FindUnique<T>(xs: seq<T>, key: T -> Id, i: nat)
    requires UniqueIds(xs, key) && i < |xs|
    ensures Find(xs, key, key(xs[i])) == Some(xs[i])
  {
    var r := Find(xs, key, key(xs[i]));
    var j :| 0 <= j < |xs| && xs[j] == r.value && key(xs[j]) == key(xs[i]) && !HasId(xs[..j], key, key(xs[i]));
    assert forall m :: 0 <= m < j ==> xs[..j][m] == xs[m];
    assert j == i;
  }

  /** `xs.map(e => key(e) === key(x) ? x : e)`: every element carrying the id
      of `x` becomes `x`; all others stay where they are. */
  function ReplaceById<T>(xs: seq<T>, key: T -> Id, x: T): (r: seq<T>)
    ensures |r| == |xs|
    ensures forall i :: 0 <= i < |xs| && key(xs[i]) != key(x) ==> r[i] == xs[i]
    ensures forall i :: 0 <= i < |xs| && key(xs[i]) == key(x) ==> r[i] == x
  {
    if |xs| == 0 then []
    else [if key(xs[0]) == key(x) then x else xs[0]] + ReplaceById(xs[1..], key, x)
  }

  /** Replacement keeps the sequence of ids, so uniqueness survives. */
  lemma ReplaceKeepsIds<T>(xs: seq<T>, key: T -> Id, x: T)
    ensures forall i :: 0 <= i < |xs| ==> key(ReplaceById(xs, key, x)[i]) == key(xs[i])
    ensures UniqueIds(xs, key) ==> UniqueIds(ReplaceById(xs, key, x), key)
  {
  }

  /** Replacing with the same value twice is the same as once. */
  lemma ReplaceIdempotent<T>(xs: seq<T>, key: T -> Id, x: T)
    ensures ReplaceById(ReplaceById(xs, key, x), key, x) == ReplaceById(xs, key, x)
  {
    var once := ReplaceById(xs, key, x);
    var twice := ReplaceById(once, key, x);
    forall i | 0 <= i < |xs|
      ensures twice[i] == once[i]
    {
      if key(xs[i]) == key(x) {
        assert once[i] == x;
      } else {
        assert once[i] == xs[i];
      }
    }
  }

  /** An id that is not present leaves the list untouched. */
  lemma ReplaceUnknownIsNoop<T>(xs: seq<T>, key: T -> Id, x: T)
    requires !HasId(xs, key, key(x))
    ensures ReplaceById(xs, key, x) == xs
  {
    var r := ReplaceById(xs, key, x);
    forall i | 0 <= i < |xs|
      ensures r[i] == xs[i]
    {
      assert key(xs[i]) != key(x);
    }
  }

  /** After replacing a present id, looking it up yields the new value. */
  lemma FindAfterReplace<T>(xs: seq<T>, key: T -> Id, x: T)
    requires HasId(xs, key, key(x))
    ensures Find(ReplaceById(xs, key, x), key, key(x)) == Some(x)
  {
    var r := ReplaceById(xs, key, x);
    var i :| 0 <= i < |xs| && key(xs[i]) == key(x);
    assert key(r[i]) == key(x);
    var f := Find(r, key, key(x));
    var j :| 0 <= j < |r| && r[j] == f.value && key(r[j]) == key(x);
    assert key(xs[j]) == key(x);
  }

  function IsId<T>(key: T -> Id, k: Id): T -> bool
  {
    (e: T) => key(e) == k
  }

  function NotId<T>(key: T -> Id, k: Id): T -> bool
  {
    (e: T) => key(e) != k
  }

  /** `xs.filter(e => key(e) !== k)`. */
  function RemoveById<T(==)>(xs: seq<T>, key: T -> Id, k: Id): (r: seq<T>)
    ensures IsSubsequence(r, xs)
    ensures !HasId(r, key, k)
    ensures forall i :: 0 <= i < |r| ==> r[i] in xs
    ensures forall i :: 0 <= i < |xs| && key(xs[i]) != k ==> xs[i] in r
    ensures |r| + Count(xs, IsId(key, k)) == |xs|
  {
    var r := Filter(xs, NotId(key, k));
    CountComplement(xs, key, k);
    r
  }

  lemma {:induction false} CountComplement<T>(xs: seq<T>, key: T -> Id, k: Id)
    ensures Count(xs, NotId(key, k)) + Count(xs, IsId(key, k)) == |xs|
  {
    if |xs| > 0 {
      CountComplement(xs[1..], key, k);
    }
  }

  /** Removing an id that is absent changes nothing. */
  lemma RemoveUnknownIsNoop<T>(xs: seq<T>, key: T -> Id, k: Id)
    requires !HasId(xs, key, k)
    ensures RemoveById(xs, key, k) == xs
  {
    FilterKeepsAll(xs, NotId(key, k));
  }

  /** Appending an element with a fresh id and then removing that id gives
      back the original list. */
  lemma {:induction false} RemoveUndoesAppend<T>(xs: seq<T>, key: T -> Id, x: T)
    requires !HasId(xs, key, key(x))
    ensures RemoveById(xs + [x], key, key(x)) == xs
  {
    if |xs| == 0 {
      assert [x][1..] == [];
    } else {
      assert (xs + [x])[1..] == xs[1..] + [x];
      assert forall i :: 0 <= i < |xs[1..]| ==> xs[1..][i] == xs[i + 1];
      RemoveUndoesAppend(xs[1..], key, x);
      assert key(xs[0]) != key(x);
    }
  }

  /** An element appended under a fresh id is what `find` returns for that id. */
  lemma FindAppended<T>(xs: seq<T>, key: T -> Id, x: T)
    requires !HasId(xs, key, key(x))
    ensures Find(xs + [x], key, key(x)) == Some(x)
  {
    var ys := xs + [x];
    assert key(ys[|xs|]) == key(x);
    var f := Find(ys, key, key(x));
    var j :| 0 <= j < |ys| && ys[j] == f.value && key(ys[j]) == key(x);
    if j < |xs| {
      assert key(xs[j]) == key(x);
    }
  }

  /** Appending an element with a fresh id keeps ids unique and makes it findable. */
  lemma AppendFresh<T>(xs: seq<T>, key: T -> Id, x: T)
    requires UniqueIds(xs, key) && !HasId(xs, key, key(x))
    ensures UniqueIds(xs + [x], key)
    ensures Find(xs + [x], key, key(x)) == Some(x)
  {
    var ys := xs + [x];
    forall i, j | 0 <= i < j < |ys|
      ensures key(ys[i]) != key(ys[j])
    {
      if j == |xs| {
        assert ys[i] == xs[i];
      }
    }
    FindUnique(ys, key, |xs|);
  }

  /** Removal keeps a subset of the elements, so it keeps ids unique. */
  lemma {:induction false} RemoveKeepsUnique<T>(xs: seq<T>, key: T -> Id, k: Id)
    requires UniqueIds(xs, key)
    ensures UniqueIds(RemoveById(xs, key, k), key)
  {
    SubsequenceKeepsUnique(RemoveById(xs, key, k), xs, key);
  }

  lemma {:induction false} SubsequenceKeepsUnique<T>(a: seq<T>, b: seq<T>, key: T -> Id)
    requires IsSubsequence(a, b) && UniqueIds(b, key)
    ensures UniqueIds(a, key)
    decreases |b|
  {
    if |a| > 0 {
      assert |b| > 0;
      if a[0] == b[0] && IsSubsequence(a[1..], b[1..]) {
        SubsequenceKeepsUnique(a[1..], b[1..], key);
        SubsequenceMembers(a[1..], b[1..]);
        forall i, j | 0 <= i < j < |a|
          ensures key(a[i]) != key(a[j])
        {
          if i == 0 {
            assert a[j] == a[1..][j - 1];
            var m :| 0 <= m < |b[1..]| && b[1..][m] == a[j];
            assert b[m + 1] == a[j];
          } else {
            assert a[i] == a[1..][i - 1] && a[j] == a[1..][j - 1];
          }
        }
      } else {
        SubsequenceKeepsUnique(a, b[1..], key);
      }
    }
  }

  lemma {:induction false} SubsequenceMembers<T>(a: seq<T>, b: seq<T>)
    requires IsSubsequence(a, b)
    ensures forall i :: 0 <= i < |a| ==> exists m :: 0 <= m < |b| && b[m] == a[i]
    decreases |b|
  {
    if |a| > 0 {
      if a[0] == b[0] && IsSubsequence(a[1..], b[1..]) {
        SubsequenceMembers(a[1..], b[1..]);
        forall i | 0 <= i < |a|
          ensures exists m :: 0 <= m < |b| && b[m] == a[i]
        {
          if i == 0 {
            assert b[0] == a[0];
          } else {
            assert a[i] == a[1..][i - 1];
            var m :| 0 <= m < |b[1..]| && b[1..][m] == a[1..][i - 1];
            assert b[m + 1] == a[i];
          }
        }
      } else {
        SubsequenceMembers(a, b[1..]);
        forall i | 0 <= i < |a|
          ensures exists m :: 0 <= m < |b| && b[m] == a[i]
        {
          var m :| 0 <= m < |b[1..]| && b[1..][m] == a[i];
          assert b[m + 1] == a[i];
        }
      }
    }
  }
}

=== FILE: mapview.dfy ===
/** The plan surface as an event-driven state machine: zoom stepping,
    pointer-to-percentage conversion, the rubber-band rectangle of mapping
    mode, camera dragging, and the end-of-gesture reset. A `View` pairs the
    application scene with the surface's own gesture state; every handler
    is a pure `View -> View` transition. */
module MapView {
  import opened Types
  import opened Entities
  import Store
  import Text

  datatype Point = Point(x: real, y: real)

  /** The rendered plan's bounding box, in client pixels. */
  datatype Bounds = Bounds(left: real, top: real, width: real, height: real)

  /** A laid-out plan has a positive size. */
  type Box = b: Bounds | b.width > 0.0 && b.height > 0.0 witness Bounds(0.0, 0.0, 1.0, 1.0)

  /** An axis-aligned rectangle in plan percentages. */
  datatype Rect = Rect(x: real, y: real, w: real, h: real)

  /** The surface's own state besides the scene. */
  datatype Gesture = Gesture(
    isDraggingCam: bool,
    isMappingMode: bool,
    mappingStart: Option<Point>,
    currentRect: Option<Rect>)

  const Idle: Gesture := Gesture(false, false, None, None)

  datatype View = View(scene: Store.Scene, gesture: Gesture)

  // --------------------------------------------------------------------- zoom

  const MinZoom: int := 25
  const MaxZoom: int := 1000
  const ZoomStep: int := 25

  /** The zoom levels reachable from the initial 100 %. */
  predicate ZoomOk(z: int)
  {
    MinZoom <= z <= MaxZoom && z % ZoomStep == 0
  }

  lemma InitialZoomOk()
    ensures ZoomOk(Store.InitialZoom)
  {
  }

  /** The minus button: one step down, never below the minimum. */
  function ZoomOut(z: int): (r: int)
    ensures r >= MinZoom
    ensures ZoomOk(z) ==> ZoomOk(r) && r == (if z == MinZoom then z else z - ZoomStep)
  {
    if z - ZoomStep > MinZoom then z - ZoomStep else MinZoom
  }

  /** The plus button: one step up, never above the maximum. */
  function ZoomIn(z: int): (r: int)
    ensures r <= MaxZoom
    ensures ZoomOk(z) ==> ZoomOk(r) && r == (if z == MaxZoom then z else z + ZoomStep)
  {
    if z + ZoomStep < MaxZoom then z + ZoomStep else MaxZoom
  }

  /** One step in and one step out cancel away from the bounds. */
  lemma ZoomButtonsInverse(z: int)
    requires ZoomOk(z)
    ensures z < MaxZoom ==> ZoomOut(ZoomIn(z)) == z
    ensures z > MinZoom ==> ZoomIn(ZoomOut(z)) == z
  {
  }

  /** A wheel notch with ctrl or meta held: down (positive `deltaY`) zooms
      out one step, anything else zooms in one step, clamped to the range;
      without a modifier the zoom is left alone. */
  function WheelZoom(z: int, ctrl: bool, meta: bool, deltaY: real): (r: int)
    ensures !(ctrl || meta) ==> r == z
    ensures (ctrl || meta) ==> MinZoom <= r <= MaxZoom
    ensures (ctrl || meta) && ZoomOk(z) ==> ZoomOk(r)
    ensures (ctrl || meta) && ZoomOk(z) ==> r == (if deltaY > 0.0 then ZoomOut(z) else ZoomIn(z))
  {
    if ctrl || meta then
      var delta := if deltaY > 0.0 then -ZoomStep else ZoomStep;
      var capped := if z + delta < MaxZoom then z + delta else MaxZoom;
      if capped > MinZoom then capped else MinZoom
    else z
  }

  // -------------------------------------------------------------- coordinates

  /** Pointer position to plan percentages; without a rendered plan the
      origin is reported. */
  function GetCoords(p: Point, box: Option<Box>): (r: Point)
    ensures box.None? ==> r == Point(0.0, 0.0)
    ensures box.Some? ==> (InPercent(r.x) <==> box.value.left <= p.x <= box.value.left + box.value.width)
    ensures box.Some? ==> (InPercent(r.y) <==> box.value.top <= p.y <= box.value.top + box.value.height)
  {
    match box
    case None => Point(0.0, 0.0)
    case Some(b) =>
      var r := Point((p.x - b.left) / b.width * 100.0, (p.y - b.top) / b.height * 100.0);
      ScaleInPercent(p.x - b.left, b.width);
      ScaleInPercent(p.y - b.top, b.height);
      r
  }

  lemma ScaleInPercent(d: real, size: real)
    requires size > 0.0
    ensures InPercent(d / size * 100.0) <==> 0.0 <= d <= size
  {
    var q := d / size;
    assert d == q * size;
    if 0.0 <= d <= size {
      assert 0.0 <= q <= 1.0;
    }
    if 0.0 <= q * 100.0 <= 100.0 {
      assert 0.0 <= q <= 1.0;
      assert 0.0 <= q * size <= size;
    }
  }

  /** Plan percentages back to a pointer position inside the box. */
  function ToClient(q: Point, b: Box): Point
  {
    Point(b.left + q.x * b.width / 100.0, b.top + q.y * b.height / 100.0)
  }

  /** The conversion is a bijection between the box and percentage space. */
  lemma CoordsRoundTrip(p: Point, q: Point, b: Box)
    ensures GetCoords(ToClient(q, b), Some(b)) == q
    ensures ToClient(GetCoords(p, Some(b)), b) == p
  {
    var c := ToClient(q, b);
    assert (c.x - b.left) / b.width * 100.0 == q.x by {
      assert c.x - b.left == q.x * b.width / 100.0;
    }
    assert (c.y - b.top) / b.height * 100.0 == q.y by {
      assert c.y - b.top == q.y * b.height / 100.0;
    }
  }

  // ------------------------------------------------------------ rubber band

  /** The rectangle spanned by the anchor and the current pointer. */
  function Band(start: Point, cur: Point): (r: Rect)
    ensures r.w >= 0.0 && r.h >= 0.0
    ensures {r.x, r.x + r.w} == {start.x, cur.x}
    ensures {r.y, r.y + r.h} == {start.y, cur.y}
  {
    Rect(
      if cur.x < start.x then cur.x else start.x,
      if cur.y < start.y then cur.y else start.y,
      if cur.x - start.x < 0.0 then start.x - cur.x else cur.x - start.x,
      if cur.y - start.y < 0.0 then start.y - cur.y else cur.y - start.y)
  }

  /** Dragging in the opposite direction gives the same rectangle. */
  lemma BandSymmetric(a: Point, b: Point)
    ensures Band(a, b) == Band(b, a)
  {
  }

  /** A rectangle has a point of `p`'s coordinates at one of its corners. */
  predicate AnchoredAt(r: Rect, p: Point)
  {
    (p.x == r.x || p.x == r.x + r.w) && (p.y == r.y || p.y == r.y + r.h)
  }

  /** The only areas ever committed are larger than this, in both axes. */
  const MinAreaSize: real := 0.5

  // ---------------------------------------------------------------- dragging

  /** `Math.max(0, Math.min(100, v))` */
  function ClampPercent(v: real): (r: real)
    ensures InPercent(r)
    ensures InPercent(v) ==> r == v
    ensures v < 0.0 ==> r == 0.0
    ensures v > 100.0 ==> r == 100.0
  {
    if v < 100.0 then (if v > 0.0 then v else 0.0) else 100.0
  }

  /** Moves the camera with id `sel` to `q`, clamped to the plan; the camera
      written back is the first one found with that id. */
  function DragSelected(cams: seq<Camera>, sel: Id, q: Point): (r: seq<Camera>)
    ensures |r| == |cams|
    ensures forall i :: 0 <= i < |cams| && cams[i].id != sel ==> r[i] == cams[i]
    ensures forall i :: 0 <= i < |cams| && cams[i].id == sel ==>
              r[i].x == ClampPercent(q.x) && r[i].y == ClampPercent(q.y)
    ensures UniqueIds(cams, CameraId) ==> forall i :: 0 <= i < |cams| && cams[i].id == sel ==>
              r[i] == cams[i].(x := ClampPercent(q.x), y := ClampPercent(q.y))
    ensures !HasId(cams, CameraId, sel) ==> r == cams
    ensures HasId(cams, CameraId, sel) ==>
              exists k :: 0 <= k < |cams| && cams[k].id == sel && !HasId(cams[..k], CameraId, sel)
                && forall i :: 0 <= i < |cams| && cams[i].id == sel ==>
                     r[i] == cams[k].(x := ClampPercent(q.x), y := ClampPercent(q.y))
    ensures AllValid(cams) ==> AllValid(r)
    ensures UniqueIds(cams, CameraId) ==> UniqueIds(r, CameraId)
  {
    match Find(cams, CameraId, sel)
    case None => cams
    case Some(cam) =>
      var moved := cam.(x := ClampPercent(q.x), y := ClampPercent(q.y));
      var r := ReplaceById(cams, CameraId, moved);
      ReplaceKeepsIds(cams, CameraId, moved);
      assert UniqueIds(cams, CameraId) ==> forall i :: 0 <= i < |cams| && cams[i].id == sel ==> cams[i] == cam by {
        if UniqueIds(cams, CameraId) {
          forall i | 0 <= i < |cams| && cams[i].id == sel
            ensures cams[i] == cam
          {
            FindUnique(cams, CameraId, i);
          }
        }
      }
      r
  }

  // ---------------------------------------------------------------- handlers

  /** Wheel over the surface. */
  function HandleWheel(v: View, ctrl: bool, meta: bool, deltaY: real): (r: View)
    ensures r.gesture == v.gesture
    ensures r.scene == v.scene.(zoom := r.scene.zoom)
    ensures !(ctrl || meta) ==> r == v
    ensures (ctrl || meta) ==> MinZoom <= r.scene.zoom <= MaxZoom
    ensures (ctrl || meta) && ZoomOk(v.scene.zoom) ==>
              r.scene.zoom == (if deltaY > 0.0 then ZoomOut(v.scene.zoom) else ZoomIn(v.scene.zoom))
  {
    v.(scene := v.scene.(zoom := WheelZoom(v.scene.zoom, ctrl, meta, deltaY)))
  }

  /** Mouse-down on the surface: in mapping mode it anchors a zero-size
      rectangle at the pointer; otherwise it does nothing. */
  function MouseDown(v: View, p: Point, box: Option<Box>): (r: View)
    ensures !v.gesture.isMappingMode ==> r == v
    ensures v.gesture.isMappingMode ==>
              var q := GetCoords(p, box);
              && r.scene == v.scene
              && r.gesture.mappingStart == Some(q)
              && r.gesture.currentRect == Some(Rect(q.x, q.y, 0.0, 0.0))
              && r.gesture.isMappingMode && r.gesture.isDraggingCam == v.gesture.isDraggingCam
  {
    if v.gesture.isMappingMode then
      var q := GetCoords(p, box);
      v.(gesture := v.gesture.(mappingStart := Some(q), currentRect := Some(Rect(q.x, q.y, 0.0, 0.0))))
    else v
  }

  /** The truthiness test `isDraggingCam && selectedCameraId`: a drag is
      live only while a camera id is selected, and the empty string, being
      falsy, does not count as one. */
  predicate DragLive(v: View)
  {
    v.gesture.isDraggingCam && v.scene.selectedCameraId.Some? && v.scene.selectedCameraId.value != ""
  }

  /** Mouse-move over the surface: stretches the rubber band while one is
      anchored in mapping mode, and moves the selected camera while a drag
      is in progress. */
  function MouseMove(v: View, p: Point, box: Option<Box>): (r: View)
    ensures var q := GetCoords(p, box);
      r.gesture.currentRect ==
        (if v.gesture.isMappingMode && v.gesture.mappingStart.Some?
         then Some(Band(v.gesture.mappingStart.value, q)) else v.gesture.currentRect)
    ensures r.gesture.mappingStart == v.gesture.mappingStart
    ensures r.gesture.isMappingMode == v.gesture.isMappingMode
    ensures r.gesture.isDraggingCam == v.gesture.isDraggingCam
    ensures r.scene.areas == v.scene.areas && r.scene.zoom == v.scene.zoom
    ensures r.scene.selectedCameraId == v.scene.selectedCameraId
    ensures r.scene.selectedAreaId == v.scene.selectedAreaId
    ensures !DragLive(v) ==> r.scene == v.scene
    ensures DragLive(v) ==>
              r.scene.cameras == DragSelected(v.scene.cameras, v.scene.selectedCameraId.value, GetCoords(p, box))
  {
    var q := GetCoords(p, box);
    var g := if v.gesture.isMappingMode && v.gesture.mappingStart.Some?
      then v.gesture.(currentRect := Some(Band(v.gesture.mappingStart.value, q)))
      else v.gesture;
    var s := if DragLive(v)
      then v.scene.(cameras := DragSelected(v.scene.cameras, v.scene.selectedCameraId.value, q))
      else v.scene;
    View(s, g)
  }

  /** Whether releasing the pointer commits the rubber band as an area. */
  predicate Commits(g: Gesture)
  {
    g.isMappingMode && g.currentRect.Some?
    && g.currentRect.value.w > MinAreaSize && g.currentRect.value.h > MinAreaSize
  }

  /** Every new area's name starts with this, followed by its number. */
  const AreaNamePrefix: string := "Novo Setor "

  /** The area built from a committed rubber band; its name numbers it
      after the areas already present. */
  function NewArea(id: Id, rect: Rect, count: nat): (a: Area)
    ensures a.id == id && a.kind == "custom" && a.color == Store.NewAreaColor
    ensures a.x == rect.x && a.y == rect.y && a.width == rect.w && a.height == rect.h
    ensures |a.name| > |AreaNamePrefix| && a.name[..|AreaNamePrefix|] == AreaNamePrefix
    ensures var digits := a.name[|AreaNamePrefix|..];
      && (forall i :: 0 <= i < |digits| ==> Text.IsDigit(digits[i]))
      && (|digits| > 1 ==> digits[0] != '0')
      && Text.DecimalValue(digits) == count + 1
  {
    var digits := Text.DecimalString(count + 1);
    Text.DecimalRoundTrip(count + 1);
    var name := AreaNamePrefix + digits;
    assert name[|AreaNamePrefix|..] == digits;
    Area(id, name, rect.x, rect.y, rect.w, rect.h, "custom", "#3b82f6")
  }

  /** Mouse-up anywhere: commits the rubber band when mapping mode is on and
      it exceeds the minimum size in both axes (leaving mapping mode), and
      in every case ends the gesture. */
  function MouseUp(v: View, newId: Id): (r: View)
    ensures r.gesture.mappingStart.None? && r.gesture.currentRect.None? && !r.gesture.isDraggingCam
    ensures r.gesture.isMappingMode == (v.gesture.isMappingMode && !Commits(v.gesture))
    ensures !Commits(v.gesture) ==> r.scene == v.scene
    ensures Commits(v.gesture) ==>
              var rect := v.gesture.currentRect.value;
              && |r.scene.areas| == |v.scene.areas| + 1
              && r.scene.areas[..|v.scene.areas|] == v.scene.areas
              && r.scene.areas[|v.scene.areas|] == NewArea(newId, rect, |v.scene.areas|)
              && r.scene.selectedAreaId == Some(newId) && r.scene.selectedCameraId.None?
              && r.scene.cameras == v.scene.cameras && r.scene.zoom == v.scene.zoom
  {
    var g := v.gesture;
    var s := if Commits(g) then Store.AddArea(v.scene, NewArea(newId, g.currentRect.value, |v.scene.areas|)) else v.scene;
    var mapping := if Commits(g) then false else g.isMappingMode;
    View(s, Gesture(false, mapping, None, None))
  }

  /** Mouse-down on a camera marker selects it and starts dragging it at
      once, without reaching the surface's own mouse-down. */
  function CameraDown(v: View, id: Id): (r: View)
    ensures r.scene.selectedCameraId == Some(id) && r.scene.selectedAreaId.None?
    ensures r.gesture.isDraggingCam
    ensures r.gesture == v.gesture.(isDraggingCam := true)
    ensures r.scene.cameras == v.scene.cameras && r.scene.areas == v.scene.areas
  {
    View(Store.SelectCamera(v.scene, id), v.gesture.(isDraggingCam := true))
  }

  /** A click on an area selects it; it never starts or stops a drag. */
  function AreaClick(v: View, id: Id): (r: View)
    ensures r.scene.selectedAreaId == Some(id) && r.scene.selectedCameraId.None?
    ensures r.gesture == v.gesture
    ensures r.scene.cameras == v.scene.cameras && r.scene.areas == v.scene.areas
  {
    View(Store.SelectArea(v.scene, id), v.gesture)
  }

  /** The MAPEAR / CANCELAR toolbar button. */
  function ToggleMapping(v: View): (r: View)
    ensures r.gesture.isMappingMode != v.gesture.isMappingMode
    ensures r.scene == v.scene
    ensures r.gesture.(isMappingMode := v.gesture.isMappingMode) == v.gesture
  {
    v.(gesture := v.gesture.(isMappingMode := !v.gesture.isMappingMode))
  }

  // ------------------------------------------------------------------ events

  datatype MapEvent =
    | Wheel(ctrl: bool, meta: bool, deltaY: real)
    | ZoomOutClick
    | ZoomInClick
    | SurfaceDown(at: Point, box: Option<Box>)
    | SurfaceMove(at: Point, box: Option<Box>)
    | PointerUp(newAreaId: Id)
    | MarkerDown(cameraId: Id)
    | ZoneClick(areaId: Id)
    | MappingToggle
    | AddCameraClick(newCameraId: Id, today: string)

  /** The surface's event dispatch. Each state component has its own few
      events that may change it. */
  function Step(v: View, e: MapEvent): (r: View)
    ensures r.scene.zoom != v.scene.zoom ==> e.Wheel? || e.ZoomOutClick? || e.ZoomInClick?
    ensures e.ZoomOutClick? ==> r == v.(scene := v.scene.(zoom := ZoomOut(v.scene.zoom)))
    ensures e.ZoomInClick? ==> r == v.(scene := v.scene.(zoom := ZoomIn(v.scene.zoom)))
    ensures r.scene.cameras != v.scene.cameras ==> e.SurfaceMove? || e.AddCameraClick?
    ensures r.scene.areas != v.scene.areas ==> e.PointerUp?
    ensures r.gesture != v.gesture ==>
              e.SurfaceDown? || e.SurfaceMove? || e.PointerUp? || e.MarkerDown? || e.MappingToggle?
    ensures r.scene.searchTerm == v.scene.searchTerm
  {
    match e
    case Wheel(ctrl, meta, dy) => HandleWheel(v, ctrl, meta, dy)
    case ZoomOutClick => v.(scene := v.scene.(zoom := ZoomOut(v.scene.zoom)))
    case ZoomInClick => v.(scene := v.scene.(zoom := ZoomIn(v.scene.zoom)))
    case SurfaceDown(p, box) => MouseDown(v, p, box)
    case SurfaceMove(p, box) => MouseMove(v, p, box)
    case PointerUp(id) => MouseUp(v, id)
    case MarkerDown(id) => CameraDown(v, id)
    case ZoneClick(id) => AreaClick(v, id)
    case MappingToggle => ToggleMapping(v)
    case AddCameraClick(id, today) => v.(scene := Store.AddCamera(v.scene, id, today))
  }

  // -------------------------------------------------------------- invariants

  /** An anchor and a rubber band exist together; the band has a
      non-negative size and keeps the anchor at one of its corners. */
  predicate GestureOk(g: Gesture)
  {
    && (g.mappingStart.Some? <==> g.currentRect.Some?)
    && (g.currentRect.Some? ==>
          && g.currentRect.value.w >= 0.0 && g.currentRect.value.h >= 0.0
          && AnchoredAt(g.currentRect.value, g.mappingStart.value))
  }

  /** Every committed area is larger than the minimum in both axes. */
  predicate AreasSized(areas: seq<Area>)
  {
    forall i :: 0 <= i < |areas| ==> areas[i].width > MinAreaSize && areas[i].height > MinAreaSize
  }

  predicate ViewOk(v: View)
  {
    && Store.SelectionExclusive(v.scene)
    && ZoomOk(v.scene.zoom)
    && AllValid(v.scene.cameras)
    && AreasSized(v.scene.areas)
    && GestureOk(v.gesture)
  }

  /** Every surface event keeps the selection slots exclusive, the zoom on
      its grid, every camera inside its documented domains, every area above
      the size threshold and the rubber band anchored. */
  lemma StepKeepsViewOk(v: View, e: MapEvent)
    requires ViewOk(v)
    ensures ViewOk(Step(v, e))
  {
    match e
    case PointerUp(id) =>
      if Commits(v.gesture) {
        var a := NewArea(id, v.gesture.currentRect.value, |v.scene.areas|);
        var r := Step(v, e);
        assert r.scene.areas == v.scene.areas + [r.scene.areas[|v.scene.areas|]];
      }
    case SurfaceMove(p, box) =>
      var q := GetCoords(p, box);
      if v.gesture.isMappingMode && v.gesture.mappingStart.Some? {
        var b := Band(v.gesture.mappingStart.value, q);
        assert AnchoredAt(b, v.gesture.mappingStart.value);
      }
    case _ =>
  }

  /** Distinct ids survive every surface event whose fresh id really is new. */
  predicate FreshFor(v: View, e: MapEvent)
  {
    match e
    case PointerUp(id) => !HasId(v.scene.areas, AreaId, id)
    case AddCameraClick(id, _) => !HasId(v.scene.cameras, CameraId, id)
    case _ => true
  }

  predicate IdsUnique(s: Store.Scene)
  {
    UniqueIds(s.cameras, CameraId) && UniqueIds(s.areas, AreaId)
  }

  lemma StepKeepsIdsUnique(v: View, e: MapEvent)
    requires IdsUnique(v.scene) && FreshFor(v, e)
    ensures IdsUnique(Step(v, e).scene)
  {
    match e
    case PointerUp(id) =>
      if Commits(v.gesture) {
        var a := NewArea(id, v.gesture.currentRect.value, |v.scene.areas|);
        AppendFresh(v.scene.areas, AreaId, a.(color := Store.NewAreaColor));
      }
    case AddCameraClick(id, today) =>
      AppendFresh(v.scene.cameras, CameraId, Store.NewCamera(id, today));
    case _ =>
  }

  // ------------------------------------------------------------- gestures

  /** Press on a marker, then move: the camera follows the pointer on the
      very first move, clamped to the plan, and nothing else changes. */
  lemma DragStartsImmediately(v: View, i: nat, p: Point, box: Option<Box>)
    requires UniqueIds(v.scene.cameras, CameraId) && i < |v.scene.cameras|
    requires v.scene.cameras[i].id != ""
    ensures var c := v.scene.cameras[i];
      var r := Step(Step(v, MarkerDown(c.id)), SurfaceMove(p, box));
      var q := GetCoords(p, box);
      && |r.scene.cameras| == |v.scene.cameras|
      && r.scene.cameras[i] == c.(x := ClampPercent(q.x), y := ClampPercent(q.y))
      && (forall j :: 0 <= j < |v.scene.cameras| && j != i ==> r.scene.cameras[j] == v.scene.cameras[j])
      && r.scene.areas == v.scene.areas
  {
    var c := v.scene.cameras[i];
    var v1 := Step(v, MarkerDown(c.id));
    assert v1.gesture.isDraggingCam && v1.scene.selectedCameraId == Some(c.id);
    forall j | 0 <= j < |v.scene.cameras| && j != i
      ensures v.scene.cameras[j].id != c.id
    {
    }
  }

  /** The empty string is falsy, so a selection holding it never drags. */
  lemma EmptySelectionNeverDrags(v: View, p: Point, box: Option<Box>)
    requires v.scene.selectedCameraId == Some("")
    ensures Step(v, SurfaceMove(p, box)).scene == v.scene
  {
  }

  /** Drawing an area in mapping mode: press, drag and release commit the
      band spanned by the two pointer positions when it exceeds the
      minimum size in both axes (leaving mapping mode and selecting the
      new area); otherwise the scene is unchanged and mapping mode stays on. */
  lemma DrawArea(v: View, a: Point, b: Point, box: Option<Box>, id: Id)
    requires v.gesture.isMappingMode
    ensures var r := Step(Step(Step(v, SurfaceDown(a, box)), SurfaceMove(b, box)), PointerUp(id));
      var band := Band(GetCoords(a, box), GetCoords(b, box));
      var n := |v.scene.areas|;
      && r.gesture == Idle.(isMappingMode := !(band.w > MinAreaSize && band.h > MinAreaSize))
      && (band.w > MinAreaSize && band.h > MinAreaSize ==>
            && r.scene.areas == v.scene.areas + [NewArea(id, band, n)]
            && r.scene.selectedAreaId == Some(id) && r.scene.selectedCameraId.None?)
      && (!(band.w > MinAreaSize && band.h > MinAreaSize) ==> r.scene.areas == v.scene.areas)
  {
    var v2 := Step(Step(v, SurfaceDown(a, box)), SurfaceMove(b, box));
    assert v2.gesture.currentRect == Some(Band(GetCoords(a, box), GetCoords(b, box)));
    var r := Step(v2, PointerUp(id));
    if Commits(v2.gesture) {
      assert r.scene.areas == v.scene.areas + [r.scene.areas[|v.scene.areas|]];
    }
  }
}

=== FILE: session.dfy ===
/** The whole application wired together: the plan surface, the detail
    panel and the device list all act on one scene. Panel effects are
    applied through the scene's handlers, and after every event the panel
    re-renders with the selected camera and area looked up in the lists.
    The lemmas here hold for every sequence of user events from start-up. */
module Session {
  import opened Types
  import opened Entities
  import Store
  import MapView
  import Sidebar

  datatype System = System(view: MapView.View, panel: Sidebar.Panel)

  datatype Event =
    | OnMap(mapEvent: MapView.MapEvent)
    | OnPanel(panelEvent: Sidebar.PanelEvent)
    | ListSelect(cameraId: Id)        // a row of the device list
    | SearchInput(term: string)       // the device list's search box

  /** The application as it opens. */
  function Initial(): MapView.View
  {
    MapView.View(Store.Init(), MapView.Idle)
  }

  function InitialSystem(): System
  {
    System(Initial(), Sidebar.Unmounted)
  }

  /** The panel's effects, routed to the scene handlers they are bound to. */
  function Apply(s: Store.Scene, eff: Sidebar.Effect): (r: Store.Scene)
    ensures eff.NoEffect? ==> r == s
    ensures r.zoom == s.zoom && r.searchTerm == s.searchTerm
    ensures eff.UpdateCamera? || eff.UpdateArea? ==>
              r.selectedCameraId == s.selectedCameraId && r.selectedAreaId == s.selectedAreaId
    ensures eff.DeleteCamera? || eff.ClosePanel? ==> r.selectedCameraId.None?
    ensures eff.DeleteArea? || eff.ClosePanel? ==> r.selectedAreaId.None?
    ensures r.cameras != s.cameras ==> eff.UpdateCamera? || eff.DeleteCamera?
    ensures r.areas != s.areas ==> eff.UpdateArea? || eff.DeleteArea?
    ensures Store.SelectionExclusive(s) ==> Store.SelectionExclusive(r)
    ensures eff.UpdateCamera? ==> r == Store.UpdateCamera(s, eff.camera)
    ensures eff.UpdateArea? ==> r == Store.UpdateArea(s, eff.area)
    ensures eff.DeleteCamera? ==> r == Store.DeleteCamera(s, eff.id)
    ensures eff.DeleteArea? ==> r == Store.DeleteArea(s, eff.id)
    ensures eff.ClosePanel? ==> r == Store.Close(s)
  {
    match eff
    case NoEffect => s
    case UpdateCamera(c) => Store.UpdateCamera(s, c)
    case UpdateArea(a) => Store.UpdateArea(s, a)
    case DeleteCamera(id) => Store.DeleteCamera(s, id)
    case DeleteArea(id) => Store.DeleteArea(s, id)
    case ClosePanel => Store.Close(s)
  }

  /** The panel after re-rendering against the scene. */
  function Render(p: Sidebar.Panel, s: Store.Scene): Sidebar.Panel
  {
    Sidebar.Observe(p, Store.SelectedCamera(s), Store.SelectedArea(s))
  }

  function Step(sys: System, e: Event): (r: System)
    ensures e.OnMap? ==> r.view == MapView.Step(sys.view, e.mapEvent)
    ensures e.OnPanel? ==> r.view.gesture == sys.view.gesture
    ensures e.OnPanel? ==>
              var eff := Sidebar.Handle(sys.panel, Store.SelectedCamera(sys.view.scene),
                                        Store.SelectedArea(sys.view.scene), e.panelEvent).1;
              r.view.scene == Apply(sys.view.scene, eff)
    ensures e.ListSelect? ==> r.view == sys.view.(scene := Store.SelectCamera(sys.view.scene, e.cameraId))
    ensures e.SearchInput? ==> r.view == sys.view.(scene := sys.view.scene.(searchTerm := e.term))
    ensures Sidebar.Synced(r.panel, Store.SelectedCamera(r.view.scene), Store.SelectedArea(r.view.scene))
  {
    var v := sys.view;
    var handled := if e.OnPanel?
      then Sidebar.Handle(sys.panel, Store.SelectedCamera(v.scene), Store.SelectedArea(v.scene), e.panelEvent)
      else (sys.panel, Sidebar.NoEffect);
    var v' := match e
      case OnMap(me) => MapView.Step(v, me)
      case OnPanel(pe) => v.(scene := Apply(v.scene, handled.1))
      case ListSelect(id) => v.(scene := Store.SelectCamera(v.scene, id))
      case SearchInput(t) => v.(scene := v.scene.(searchTerm := t));
    System(v', Render(handled.0, v'.scene))
  }

  function Run(sys: System, es: seq<Event>): System
    decreases |es|
  {
    if |es| == 0 then sys else Run(Step(sys, es[0]), es[1..])
  }

  /** What every reachable state satisfies. */
  predicate Inv(sys: System)
  {
    && MapView.ViewOk(sys.view)
    && Sidebar.Synced(sys.panel, Store.SelectedCamera(sys.view.scene), Store.SelectedArea(sys.view.scene))
  }

  lemma InitialInv()
    ensures Inv(InitialSystem())
  {
    MapView.InitialZoomOk();
  }

  /** An effect keeps the scene invariants when an updated camera lies in
      its domains and an updated area keeps the minimum size. */
  lemma ApplyKeepsViewOk(v: MapView.View, eff: Sidebar.Effect)
    requires MapView.ViewOk(v)
    requires eff.UpdateCamera? ==> ValidCamera(eff.camera)
    requires eff.UpdateArea? ==> eff.area.width > MapView.MinAreaSize && eff.area.height > MapView.MinAreaSize
    ensures MapView.ViewOk(v.(scene := Apply(v.scene, eff)))
  {
    var s := v.scene;
    match eff
    case UpdateCamera(c) =>
      var r := Store.UpdateCamera(s, c);
      assert forall i :: 0 <= i < |r.cameras| ==> r.cameras[i] == s.cameras[i] || r.cameras[i] == c;
    case UpdateArea(a) =>
      var r := Store.UpdateArea(s, a);
      assert forall i :: 0 <= i < |r.areas| ==> r.areas[i] == s.areas[i] || r.areas[i] == a;
    case DeleteCamera(id) =>
      var r := Store.DeleteCamera(s, id);
      assert forall i :: 0 <= i < |r.cameras| ==> r.cameras[i] in s.cameras;
    case DeleteArea(id) =>
      var r := Store.DeleteArea(s, id);
      assert forall i :: 0 <= i < |r.areas| ==> r.areas[i] in s.areas;
    case _ =>
  }

  /** The panel's effects keep the scene invariants. */
  lemma PanelKeepsViewOk(sys: System, pe: Sidebar.PanelEvent)
    requires Inv(sys)
    ensures MapView.ViewOk(Step(sys, OnPanel(pe)).view)
  {
    var v := sys.view;
    var cam := Store.SelectedCamera(v.scene);
    var area := Store.SelectedArea(v.scene);
    var eff := Sidebar.Handle(sys.panel, cam, area, pe).1;
    assert Step(sys, OnPanel(pe)).view == v.(scene := Apply(v.scene, eff));
    Sidebar.EditsKeepDomains(sys.panel, cam, area, pe);
    if eff.UpdateCamera? {
      assert cam.value in v.scene.cameras;
    }
    if eff.UpdateArea? {
      assert area.value in v.scene.areas;
    }
    ApplyKeepsViewOk(v, eff);
  }

  /** Every event keeps the invariant. */
  lemma StepKeepsInv(sys: System, e: Event)
    requires Inv(sys)
    ensures Inv(Step(sys, e))
  {
    match e
    case OnMap(me) => MapView.StepKeepsViewOk(sys.view, me);
    case OnPanel(pe) => PanelKeepsViewOk(sys, pe);
    case _ =>
  }

  /** The invariant holds after any sequence of events from a state that
      satisfies it. */
  lemma {:induction false} RunKeepsInv(sys: System, es: seq<Event>)
    requires Inv(sys)
    ensures Inv(Run(sys, es))
    decreases |es|
  {
    if |es| > 0 {
      StepKeepsInv(sys, es[0]);
      RunKeepsInv(Step(sys, es[0]), es[1..]);
    }
  }

  /** From start-up, whatever the user does: never a camera and an area
      selected at once, the zoom within [25,1000] on multiples of 25, every
      camera inside its documented domains, every area above the minimum
      size. */
  lemma Reachable(es: seq<Event>)
    ensures var v := Run(InitialSystem(), es).view;
      && Store.SelectionExclusive(v.scene)
      && MapView.MinZoom <= v.scene.zoom <= MapView.MaxZoom && v.scene.zoom % MapView.ZoomStep == 0
      && AllValid(v.scene.cameras)
      && MapView.AreasSized(v.scene.areas)
  {
    InitialInv();
    RunKeepsInv(InitialSystem(), es);
  }

  // -------------------------------------------------------------- unique ids

  /** The random ids an event introduces are new. */
  predicate FreshFor(sys: System, e: Event)
  {
    e.OnMap? ==> MapView.FreshFor(sys.view, e.mapEvent)
  }

  predicate FreshTrace(sys: System, es: seq<Event>)
    decreases |es|
  {
    |es| == 0 || (FreshFor(sys, es[0]) && FreshTrace(Step(sys, es[0]), es[1..]))
  }

  lemma StepKeepsIdsUnique(sys: System, e: Event)
    requires MapView.IdsUnique(sys.view.scene) && FreshFor(sys, e)
    ensures MapView.IdsUnique(Step(sys, e).view.scene)
  {
    var s := sys.view.scene;
    match e
    case OnMap(me) => MapView.StepKeepsIdsUnique(sys.view, me);
    case OnPanel(pe) =>
      var eff := Sidebar.Handle(sys.panel, Store.SelectedCamera(s), Store.SelectedArea(s), pe).1;
      match eff {
        case UpdateCamera(c) => ReplaceKeepsIds(s.cameras, CameraId, c);
        case UpdateArea(a) => ReplaceKeepsIds(s.areas, AreaId, a);
        case DeleteCamera(id) => RemoveKeepsUnique(s.cameras, CameraId, id);
        case DeleteArea(id) => RemoveKeepsUnique(s.areas, AreaId, id);
        case _ =>
      }
    case _ =>
  }

  /** As long as every generated id is new, no two cameras and no two areas
      share an id. */
  lemma {:induction false} RunKeepsIdsUnique(sys: System, es: seq<Event>)
    requires MapView.IdsUnique(sys.view.scene) && FreshTrace(sys, es)
    ensures MapView.IdsUnique(Run(sys, es).view.scene)
    decreases |es|
  {
    if |es| > 0 {
      StepKeepsIdsUnique(sys, es[0]);
      RunKeepsIdsUnique(Step(sys, es[0]), es[1..]);
    }
  }

  // ------------------------------------------------------------ delete flow

  /** With a camera selected and the panel unarmed: one delete click arms
      the panel and deletes nothing; a second click deletes the camera and
      empties the selection; a timeout instead disarms the panel and keeps
      the camera. */
  lemma DeleteCameraFlow(sys: System, c: Camera)
    requires Inv(sys) && !sys.panel.showConfirm
    requires Store.SelectedCamera(sys.view.scene) == Some(c)
    ensures var s1 := Step(sys, OnPanel(Sidebar.DeleteClick));
      s1.panel.showConfirm && s1.view == sys.view
    ensures var s2 := Step(Step(sys, OnPanel(Sidebar.DeleteClick)), OnPanel(Sidebar.DeleteClick));
      && !HasId(s2.view.scene.cameras, CameraId, c.id)
      && s2.view.scene.selectedCameraId.None? && s2.view.scene.selectedAreaId.None?
      && !s2.panel.showConfirm
    ensures var s3 := Step(Step(sys, OnPanel(Sidebar.DeleteClick)), OnPanel(Sidebar.Timeout));
      s3.view == sys.view && !s3.panel.showConfirm
  {
    var s1 := Step(sys, OnPanel(Sidebar.DeleteClick));
    assert s1.view == sys.view;
    assert Store.SelectedCamera(s1.view.scene) == Some(c);
  }

  /** The same flow for a selected area. */
  lemma DeleteAreaFlow(sys: System, a: Area)
    requires Inv(sys) && !sys.panel.showConfirm
    requires Store.SelectedArea(sys.view.scene) == Some(a)
    ensures var s1 := Step(sys, OnPanel(Sidebar.DeleteClick));
      s1.panel.showConfirm && s1.view == sys.view
    ensures var s2 := Step(Step(sys, OnPanel(Sidebar.DeleteClick)), OnPanel(Sidebar.DeleteClick));
      && !HasId(s2.view.scene.areas, AreaId, a.id)
      && s2.view.scene.selectedCameraId.None? && s2.view.scene.selectedAreaId.None?
      && !s2.panel.showConfirm
    ensures var s3 := Step(Step(sys, OnPanel(Sidebar.DeleteClick)), OnPanel(Sidebar.Timeout));
      s3.view == sys.view && !s3.panel.showConfirm
  {
    var s1 := Step(sys, OnPanel(Sidebar.DeleteClick));
    assert s1.view == sys.view;
    assert Store.SelectedArea(s1.view.scene) == Some(a);
  }

  /** Moving a slider of the selected camera updates that camera in the
      scene through the application's handler, with the value clamped to the
      slider's range; the panel stays armed or unarmed as it was. */
  lemma SlideFlow(sys: System, c: Camera, sl: Sidebar.Slider, raw: int)
    requires Inv(sys)
    requires Store.SelectedCamera(sys.view.scene) == Some(c)
    ensures var r := Step(sys, OnPanel(Sidebar.Slide(sl, raw)));
      && r.view.scene == Store.UpdateCamera(sys.view.scene, Sidebar.SetSlider(c, sl, Sidebar.SliderValue(sl, raw)))
      && r.view.gesture == sys.view.gesture
      && r.panel == sys.panel
  {
    var v := sys.view;
    var area := Store.SelectedArea(v.scene);
    var c' := Sidebar.SetSlider(c, sl, Sidebar.SliderValue(sl, raw));
    var handled := Sidebar.Handle(sys.panel, Some(c), area, Sidebar.Slide(sl, raw));
    assert handled == (sys.panel, Sidebar.UpdateCamera(c'));
    var s' := Store.UpdateCamera(v.scene, c');
    assert Apply(v.scene, handled.1) == s';
    assert HasId(v.scene.cameras, CameraId, c.id) by {
      var i :| 0 <= i < |v.scene.cameras| && v.scene.cameras[i] == c;
      assert CameraId(v.scene.cameras[i]) == c.id;
    }
    assert Store.SelectedCamera(s') == Some(c');
    assert Store.SelectedArea(s') == area;
    assert Render(sys.panel, s') == Sidebar.Observe(sys.panel, Some(c'), area);
  }

  /** Picking a palette colour for the selected area updates that area in
      the scene through the application's handler; the panel is unchanged. */
  lemma PickColorFlow(sys: System, a: Area, i: Sidebar.PresetIndex)
    requires Inv(sys)
    requires Store.SelectedCamera(sys.view.scene).None?
    requires Store.SelectedArea(sys.view.scene) == Some(a)
    ensures var r := Step(sys, OnPanel(Sidebar.PickColor(i)));
      && r.view.scene == Store.UpdateArea(sys.view.scene, a.(color := Sidebar.PresetColors[i]))
      && r.view.gesture == sys.view.gesture
      && r.panel == sys.panel
  {
    var v := sys.view;
    var a' := a.(color := Sidebar.PresetColors[i]);
    var handled := Sidebar.Handle(sys.panel, None, Some(a), Sidebar.PickColor(i));
    assert handled == (sys.panel, Sidebar.UpdateArea(a'));
    var s' := Store.UpdateArea(v.scene, a');
    assert Apply(v.scene, handled.1) == s';
    assert HasId(v.scene.areas, AreaId, a.id) by {
      var j :| 0 <= j < |v.scene.areas| && v.scene.areas[j] == a;
      assert AreaId(v.scene.areas[j]) == a.id;
    }
    assert Store.SelectedArea(s') == Some(a');
    assert Store.SelectedCamera(s') == None;
    assert Render(sys.panel, s') == Sidebar.Observe(sys.panel, None, Some(a'));
  }

  /** Selecting a different camera disarms the panel. */
  lemma SelectionChangeDisarms(sys: System, id: Id)
    requires Inv(sys)
    requires Store.SelectedCamera(sys.view.scene).None? || Store.SelectedCamera(sys.view.scene).value.id != id
    ensures !Step(sys, ListSelect(id)).panel.showConfirm
  {
  }
}

=== FILE: sidebar.dfy ===
/** The detail panel for the selected camera or area: which item it shows,
    the two-click delete confirmation with its two reset paths, and the
    single-field edits it emits (name, status, preset colour, sliders). The
    panel does not change the scene itself; each event yields an `Effect`
    that the application applies. */
module Sidebar {
  import opened Types

  datatype Item = CameraItem(camera: Camera) | AreaItem(area: Area)

  /** The item the panel is about: the camera when one is given, otherwise
      the area; nothing when neither is given. */
  function Shown(camera: Option<Camera>, area: Option<Area>): (r: Option<Item>)
    ensures r.None? <==> camera.None? && area.None?
    ensures r.Some? && r.value.CameraItem? ==> camera == Some(r.value.camera)
    ensures r.Some? && r.value.AreaItem? ==> camera.None? && area == Some(r.value.area)
  {
    if camera.Some? then Some(CameraItem(camera.value))
    else if area.Some? then Some(AreaItem(area.value))
    else None
  }

  function CameraKey(camera: Option<Camera>): Option<Id>
  {
    if camera.Some? then Some(camera.value.id) else None
  }

  function AreaKey(area: Option<Area>): Option<Id>
  {
    if area.Some? then Some(area.value.id) else None
  }

  /** The panel's state: whether the delete button is armed, and the ids of
      the camera and area it last rendered (the reset effect's dependencies). */
  datatype Panel = Panel(showConfirm: bool, seenCamera: Option<Id>, seenArea: Option<Id>)

  /** A panel that is not on screen keeps no state. */
  const Unmounted: Panel := Panel(false, None, None)

  /** Re-rendering with the given items: the panel disappears when there is
      nothing to show, and the armed state is dropped whenever the camera id
      or the area id differs from the previous render. */
  function Observe(p: Panel, camera: Option<Camera>, area: Option<Area>): (r: Panel)
    ensures camera.None? && area.None? ==> r == Unmounted
    ensures camera.Some? || area.Some? ==> r.seenCamera == CameraKey(camera) && r.seenArea == AreaKey(area)
    ensures r.showConfirm <==>
              && p.showConfirm && (camera.Some? || area.Some?)
              && p.seenCamera == CameraKey(camera) && p.seenArea == AreaKey(area)
  {
    if camera.None? && area.None? then Unmounted
    else if p.seenCamera != CameraKey(camera) || p.seenArea != AreaKey(area) then
      Panel(false, CameraKey(camera), AreaKey(area))
    else p
  }

  /** The panel is up to date with the items it is given. */
  predicate Synced(p: Panel, camera: Option<Camera>, area: Option<Area>)
  {
    Observe(p, camera, area) == p
  }

  /** Rendering twice with the same items changes nothing the second time. */
  lemma ObserveSettles(p: Panel, camera: Option<Camera>, area: Option<Area>)
    ensures Synced(Observe(p, camera, area), camera, area)
  {
  }

  // ------------------------------------------------------------------- edits

  datatype Slider = SizeSlider | RotationSlider | LensSlider | ReachSlider

  function SliderMin(s: Slider): int
  {
    match s
    case SizeSlider => 20
    case RotationSlider => 0
    case LensSlider => 10
    case ReachSlider => 10
  }

  function SliderMax(s: Slider): int
  {
    match s
    case SizeSlider => 100
    case RotationSlider => 360
    case LensSlider => 180
    case ReachSlider => 500
  }

  /** The value a range input reports for a pointer position: positions
      beyond either end report that end. */
  function SliderValue(s: Slider, raw: int): (v: int)
    ensures SliderMin(s) <= v <= SliderMax(s)
    ensures SliderMin(s) <= raw <= SliderMax(s) ==> v == raw
    ensures raw < SliderMin(s) ==> v == SliderMin(s)
    ensures raw > SliderMax(s) ==> v == SliderMax(s)
  {
    if raw < SliderMin(s) then SliderMin(s) else if raw > SliderMax(s) then SliderMax(s) else raw
  }

  /** The camera field each slider drives. */
  function SliderField(c: Camera, s: Slider): int
  {
    match s
    case SizeSlider => c.iconSize
    case RotationSlider => c.rotation
    case LensSlider => c.fovAngle
    case ReachSlider => c.reach
  }

  function SetSlider(c: Camera, s: Slider, v: int): (r: Camera)
    ensures SliderField(r, s) == v
    ensures forall t :: t != s ==> SliderField(r, t) == SliderField(c, t)
    ensures r.(iconSize := c.iconSize, rotation := c.rotation, fovAngle := c.fovAngle, reach := c.reach) == c
  {
    match s
    case SizeSlider => c.(iconSize := v)
    case RotationSlider => c.(rotation := v)
    case LensSlider => c.(fovAngle := v)
    case ReachSlider => c.(reach := v)
  }

  const PresetColors: seq<string> :=
    ["#3b82f6", "#10b981", "#f59e0b", "#f43f5e", "#8b5cf6", "#06b6d4", "#f97316", "#64748b"]

  /** One of the eight palette buttons. */
  type PresetIndex = i: nat | i < 8

  // ------------------------------------------------------------------ events

  datatype PanelEvent =
    | DeleteClick
    | Timeout            // the 3000 ms timer armed by the first delete click fires
    | EditName(name: string)
    | EditStatus(status: CameraStatus)
    | PickColor(index: PresetIndex)
    | Slide(slider: Slider, raw: int)
    | CloseClick

  datatype Effect =
    | NoEffect
    | UpdateCamera(camera: Camera)
    | UpdateArea(area: Area)
    | DeleteCamera(id: Id)
    | DeleteArea(id: Id)
    | ClosePanel

  /** The delete button: the first click only arms it; a click while armed
      asks for the deletion of the item shown. */
  function ClickDelete(p: Panel, item: Item): (r: (Panel, Effect))
    ensures !p.showConfirm ==> r == (p.(showConfirm := true), NoEffect)
    ensures p.showConfirm && item.CameraItem? ==> r.1 == DeleteCamera(item.camera.id)
    ensures p.showConfirm && item.AreaItem? ==> r.1 == DeleteArea(item.area.id)
    ensures r.0.showConfirm
  {
    if !p.showConfirm then (p.(showConfirm := true), NoEffect)
    else match item
      case CameraItem(c) => (p, DeleteCamera(c.id))
      case AreaItem(a) => (p, DeleteArea(a.id))
  }

  /** One panel event against the items the panel is given. Controls that
      are not rendered for the item shown (status and sliders for an area,
      the palette for a camera) produce nothing. */
  function Handle(p: Panel, camera: Option<Camera>, area: Option<Area>, e: PanelEvent): (r: (Panel, Effect))
    ensures Shown(camera, area).None? ==> r == (p, NoEffect)
    ensures r.0.seenCamera == p.seenCamera && r.0.seenArea == p.seenArea
    ensures r.0.showConfirm != p.showConfirm ==> e == DeleteClick || e == Timeout
    ensures e == CloseClick && Shown(camera, area).Some? ==> r.1 == ClosePanel
    ensures r.1 == ClosePanel ==> e == CloseClick
    ensures e.DeleteClick? || e.Timeout? ==> r.1.NoEffect? || r.1.DeleteCamera? || r.1.DeleteArea?
    ensures r.1.UpdateCamera? ==> camera.Some? && r.1.camera.id == camera.value.id
    ensures r.1.UpdateArea? ==> camera.None? && area.Some? && r.1.area.id == area.value.id
    ensures camera.Some? && (e.EditName? || e.EditStatus? || e.Slide?) ==> r.1.UpdateCamera?
    ensures camera.None? && area.Some? && (e.EditName? || e.PickColor?) ==> r.1.UpdateArea?
  {
    match Shown(camera, area)
    case None => (p, NoEffect)
    case Some(item) =>
      match e
      case DeleteClick => ClickDelete(p, item)
      case Timeout => (p.(showConfirm := false), NoEffect)
      case EditName(n) =>
        (p, match item
            case CameraItem(c) => UpdateCamera(c.(name := n))
            case AreaItem(a) => UpdateArea(a.(name := n)))
      case EditStatus(st) =>
        (p, if item.CameraItem? then UpdateCamera(item.camera.(status := st)) else NoEffect)
      case PickColor(i) =>
        (p, if item.AreaItem? then UpdateArea(item.area.(color := PresetColors[i])) else NoEffect)
      case Slide(s, raw) =>
        (p, if item.CameraItem? then UpdateCamera(SetSlider(item.camera, s, SliderValue(s, raw))) else NoEffect)
      case CloseClick => (p, ClosePanel)
  }

  /** A deletion is only ever requested by a delete click on an armed panel,
      and it names the item shown. */
  lemma DeleteNeedsConfirm(p: Panel, camera: Option<Camera>, area: Option<Area>, e: PanelEvent)
    ensures var eff := Handle(p, camera, area, e).1;
      eff.DeleteCamera? || eff.DeleteArea? ==>
        && e == DeleteClick && p.showConfirm
        && (eff.DeleteCamera? ==> camera.Some? && eff.id == camera.value.id)
        && (eff.DeleteArea? ==> camera.None? && area.Some? && eff.id == area.value.id)
  {
  }

  /** Only a delete click arms the panel; the timeout disarms a panel on screen. */
  lemma ArmingOnlyByClick(p: Panel, camera: Option<Camera>, area: Option<Area>, e: PanelEvent)
    ensures var r := Handle(p, camera, area, e).0;
      && (r.showConfirm && !p.showConfirm ==> e == DeleteClick)
      && (e == Timeout && (camera.Some? || area.Some?) ==> !r.showConfirm)
      && r.seenCamera == p.seenCamera && r.seenArea == p.seenArea
  {
  }

  /** How an edit event may change a camera: the one field it drives. */
  predicate CameraEditedBy(before: Camera, after: Camera, e: PanelEvent)
  {
    match e
    case EditName(n) => after.name == n && after.(name := before.name) == before
    case EditStatus(st) => after.status == st && after.(status := before.status) == before
    case Slide(s, raw) =>
      && SliderField(after, s) == SliderValue(s, raw)
      && (forall t :: t != s ==> SliderField(after, t) == SliderField(before, t))
      && after.(iconSize := before.iconSize, rotation := before.rotation,
                fovAngle := before.fovAngle, reach := before.reach) == before
    case _ => false
  }

  /** How an edit event may change an area: its name, or its colour to the
      palette entry picked. */
  predicate AreaEditedBy(before: Area, after: Area, e: PanelEvent)
  {
    match e
    case EditName(n) => after.name == n && after.(name := before.name) == before
    case PickColor(i) => after.color == PresetColors[i] && after.(color := before.color) == before
    case _ => false
  }

  /** Each edit of a control rendered for the item shown emits that item
      with exactly its one field replaced, and nothing else emits an update. */
  lemma EditsChangeOneField(p: Panel, camera: Option<Camera>, area: Option<Area>, e: PanelEvent)
    ensures var eff := Handle(p, camera, area, e).1;
      eff.UpdateCamera? <==> camera.Some? && (e.EditName? || e.EditStatus? || e.Slide?)
    ensures var eff := Handle(p, camera, area, e).1;
      eff.UpdateCamera? ==> CameraEditedBy(camera.value, eff.camera, e)
    ensures var eff := Handle(p, camera, area, e).1;
      eff.UpdateArea? <==> camera.None? && area.Some? && (e.EditName? || e.PickColor?)
    ensures var eff := Handle(p, camera, area, e).1;
      eff.UpdateArea? ==> AreaEditedBy(area.value, eff.area, e)
  {
    var eff := Handle(p, camera, area, e).1;
    if eff.UpdateCamera? && e.Slide? {
      assert eff.camera == SetSlider(camera.value, e.slider, SliderValue(e.slider, e.raw));
    }
  }

  /** Edits keep a camera inside its documented domains, and leave an
      area's geometry alone. */
  lemma EditsKeepDomains(p: Panel, camera: Option<Camera>, area: Option<Area>, e: PanelEvent)
    requires camera.Some? ==> ValidCamera(camera.value)
    ensures var eff := Handle(p, camera, area, e).1;
      && (eff.UpdateCamera? ==> ValidCamera(eff.camera) && eff.camera.id == camera.value.id)
      && (eff.UpdateArea? ==>
            && eff.area.id == area.value.id
            && eff.area.x == area.value.x && eff.area.y == area.value.y
            && eff.area.width == area.value.width && eff.area.height == area.value.height)
  {
  }
}

=== FILE: store.dfy ===
/** The application-level scene: the camera and area lists, the two
    selection slots, the search term and the zoom level, with the handlers
    that the map view and the side panels call and the views derived from
    the lists (statistics, name filter, selected-item lookup). */
module Store {
  import opened Types
  import opened Entities
  import Text

  datatype Scene = Scene(
    cameras: seq<Camera>,
    areas: seq<Area>,
    selectedCameraId: Option<Id>,
    selectedAreaId: Option<Id>,
    searchTerm: string,
    zoom: int)

  const InitialCameras: seq<Camera> := [
    Camera("1768562750683", "C\U{E2}mera Entrada Sul", Active, 25.0, 90.0,
           0, 60, 150, 40, "", "15/01/2026", None)
  ]

  const InitialZoom: int := 100

  /** The fill colour every new area receives. */
  const NewAreaColor: string := "#3b82f6"

  /** The state of a freshly opened application. */
  function Init(): (s: Scene)
    ensures s.selectedCameraId.None? && s.selectedAreaId.None?
    ensures AllValid(s.cameras) && UniqueIds(s.cameras, CameraId)
    ensures |s.cameras| == 1 && s.areas == []
    ensures s.zoom == InitialZoom && s.searchTerm == ""
  {
    Scene(InitialCameras, [], None, None, "", InitialZoom)
  }

  /** At most one of the two selection slots is occupied. */
  predicate SelectionExclusive(s: Scene)
  {
    s.selectedCameraId.None? || s.selectedAreaId.None?
  }

  // ---------------------------------------------------------------- selection

  /** Selecting a camera empties the area slot. */
  function SelectCamera(s: Scene, id: Id): (r: Scene)
    ensures r.selectedCameraId == Some(id) && r.selectedAreaId.None?
    ensures SelectionExclusive(r)
    ensures r.cameras == s.cameras && r.areas == s.areas && r.zoom == s.zoom && r.searchTerm == s.searchTerm
  {
    s.(selectedAreaId := None, selectedCameraId := Some(id))
  }

  /** Selecting an area empties the camera slot. */
  function SelectArea(s: Scene, id: Id): (r: Scene)
    ensures r.selectedAreaId == Some(id) && r.selectedCameraId.None?
    ensures SelectionExclusive(r)
    ensures r.cameras == s.cameras && r.areas == s.areas && r.zoom == s.zoom && r.searchTerm == s.searchTerm
  {
    s.(selectedCameraId := None, selectedAreaId := Some(id))
  }

  /** The detail panel's close action empties both slots. */
  function Close(s: Scene): (r: Scene)
    ensures r.selectedCameraId.None? && r.selectedAreaId.None?
    ensures r.cameras == s.cameras && r.areas == s.areas && r.zoom == s.zoom && r.searchTerm == s.searchTerm
  {
    s.(selectedCameraId := None, selectedAreaId := None)
  }

  // ------------------------------------------------------------------ cameras

  /** Replaces every camera carrying `c`'s id by `c`. */
  function UpdateCamera(s: Scene, c: Camera): (r: Scene)
    ensures |r.cameras| == |s.cameras|
    ensures forall i :: 0 <= i < |s.cameras| && s.cameras[i].id != c.id ==> r.cameras[i] == s.cameras[i]
    ensures forall i :: 0 <= i < |s.cameras| && s.cameras[i].id == c.id ==> r.cameras[i] == c
    ensures !HasId(s.cameras, CameraId, c.id) ==> r == s
    ensures HasId(s.cameras, CameraId, c.id) ==> Find(r.cameras, CameraId, c.id) == Some(c)
    ensures r.areas == s.areas && r.zoom == s.zoom && r.searchTerm == s.searchTerm
    ensures r.selectedCameraId == s.selectedCameraId && r.selectedAreaId == s.selectedAreaId
  {
    var r := s.(cameras := ReplaceById(s.cameras, CameraId, c));
    assert !HasId(s.cameras, CameraId, c.id) ==> r == s by {
      if !HasId(s.cameras, CameraId, c.id) { ReplaceUnknownIsNoop(s.cameras, CameraId, c); }
    }
    assert HasId(s.cameras, CameraId, c.id) ==> Find(r.cameras, CameraId, c.id) == Some(c) by {
      if HasId(s.cameras, CameraId, c.id) { FindAfterReplace(s.cameras, CameraId, c); }
    }
    r
  }

  /** Applying the same update twice is the same as applying it once. */
  lemma UpdateCameraIdempotent(s: Scene, c: Camera)
    ensures UpdateCamera(UpdateCamera(s, c), c) == UpdateCamera(s, c)
  {
    ReplaceIdempotent(s.cameras, CameraId, c);
  }

  /** Removes every camera with id `id` and always empties the camera slot,
      whichever camera it held. */
  function DeleteCamera(s: Scene, id: Id): (r: Scene)
    ensures r.selectedCameraId.None? && r.selectedAreaId == s.selectedAreaId
    ensures IsSubsequence(r.cameras, s.cameras)
    ensures !HasId(r.cameras, CameraId, id)
    ensures forall x :: x in r.cameras <==> x in s.cameras && x.id != id
    ensures |r.cameras| + Count(s.cameras, IsId(CameraId, id)) == |s.cameras|
    ensures !HasId(s.cameras, CameraId, id) ==> r.cameras == s.cameras
    ensures r.areas == s.areas && r.zoom == s.zoom && r.searchTerm == s.searchTerm
  {
    var r := s.(selectedCameraId := None, cameras := RemoveById(s.cameras, CameraId, id));
    assert !HasId(s.cameras, CameraId, id) ==> r.cameras == s.cameras by {
      if !HasId(s.cameras, CameraId, id) { RemoveUnknownIsNoop(s.cameras, CameraId, id); }
    }
    r
  }

  /** The camera created by the toolbar button: centred, facing 0 degrees,
      a 45-degree lens, reach 100 and icon size 40, status Active and never
      maintained. */
  function NewCamera(id: Id, today: string): (c: Camera)
    ensures c.id == id && c.status == Active && c.lastMaintenance.None?
    ensures c.x == 50.0 && c.y == 50.0 && c.rotation == 0
    ensures c.fovAngle == 45 && c.reach == 100 && c.iconSize == 40
    ensures c.name == "Nova C\U{E2}mera " + id && c.observations == "" && c.installDate == today
    ensures ValidCamera(c)
  {
    Camera(id, "Nova C\U{E2}mera " + id, Active, 50.0, 50.0, 0, 45, 100, 40, "", today, None)
  }

  /** Appends one new camera, selects it and empties the area slot. */
  function AddCamera(s: Scene, newId: Id, today: string): (r: Scene)
    ensures |r.cameras| == |s.cameras| + 1
    ensures r.cameras[..|s.cameras|] == s.cameras
    ensures r.cameras[|s.cameras|] == NewCamera(newId, today)
    ensures r.selectedCameraId == Some(newId) && r.selectedAreaId.None?
    ensures AllValid(s.cameras) ==> AllValid(r.cameras)
    ensures !HasId(s.cameras, CameraId, newId) ==> SelectedCamera(r) == Some(NewCamera(newId, today))
    ensures r.areas == s.areas && r.zoom == s.zoom && r.searchTerm == s.searchTerm
  {
    var c := NewCamera(newId, today);
    var r := s.(cameras := s.cameras + [c], selectedAreaId := None, selectedCameraId := Some(newId));
    assert !HasId(s.cameras, CameraId, newId) ==> Find(r.cameras, CameraId, newId) == Some(c) by {
      if !HasId(s.cameras, CameraId, newId) { FindAppended(s.cameras, CameraId, c); }
    }
    r
  }

  /** Adding a camera and then deleting it restores the list. */
  lemma DeleteUndoesAddCamera(s: Scene, newId: Id, today: string)
    requires !HasId(s.cameras, CameraId, newId)
    ensures DeleteCamera(AddCamera(s, newId, today), newId).cameras == s.cameras
  {
    RemoveUndoesAppend(s.cameras, CameraId, NewCamera(newId, today));
  }

  // -------------------------------------------------------------------- areas

  /** Replaces every area carrying `a`'s id by `a`. */
  function UpdateArea(s: Scene, a: Area): (r: Scene)
    ensures |r.areas| == |s.areas|
    ensures forall i :: 0 <= i < |s.areas| && s.areas[i].id != a.id ==> r.areas[i] == s.areas[i]
    ensures forall i :: 0 <= i < |s.areas| && s.areas[i].id == a.id ==> r.areas[i] == a
    ensures !HasId(s.areas, AreaId, a.id) ==> r == s
    ensures HasId(s.areas, AreaId, a.id) ==> Find(r.areas, AreaId, a.id) == Some(a)
    ensures r.cameras == s.cameras && r.zoom == s.zoom && r.searchTerm == s.searchTerm
    ensures r.selectedCameraId == s.selectedCameraId && r.selectedAreaId == s.selectedAreaId
  {
    var r := s.(areas := ReplaceById(s.areas, AreaId, a));
    assert !HasId(s.areas, AreaId, a.id) ==> r == s by {
      if !HasId(s.areas, AreaId, a.id) { ReplaceUnknownIsNoop(s.areas, AreaId, a); }
    }
    assert HasId(s.areas, AreaId, a.id) ==> Find(r.areas, AreaId, a.id) == Some(a) by {
      if HasId(s.areas, AreaId, a.id) { FindAfterReplace(s.areas, AreaId, a); }
    }
    r
  }

  lemma UpdateAreaIdempotent(s: Scene, a: Area)
    ensures UpdateArea(UpdateArea(s, a), a) == UpdateArea(s, a)
  {
    ReplaceIdempotent(s.areas, AreaId, a);
  }

  /** Removes every area with id `id` and always empties the area slot. */
  function DeleteArea(s: Scene, id: Id): (r: Scene)
    ensures r.selectedAreaId.None? && r.selectedCameraId == s.selectedCameraId
    ensures IsSubsequence(r.areas, s.areas)
    ensures !HasId(r.areas, AreaId, id)
    ensures forall x :: x in r.areas <==> x in s.areas && x.id != id
    ensures |r.areas| + Count(s.areas, IsId(AreaId, id)) == |s.areas|
    ensures !HasId(s.areas, AreaId, id) ==> r.areas == s.areas
    ensures r.cameras == s.cameras && r.zoom == s.zoom && r.searchTerm == s.searchTerm
  {
    var r := s.(selectedAreaId := None, areas := RemoveById(s.areas, AreaId, id));
    assert !HasId(s.areas, AreaId, id) ==> r.areas == s.areas by {
      if !HasId(s.areas, AreaId, id) { RemoveUnknownIsNoop(s.areas, AreaId, id); }
    }
    r
  }

  /** Appends the area with its colour overwritten, selects it and empties
      the camera slot. */
  function AddArea(s: Scene, a: Area): (r: Scene)
    ensures |r.areas| == |s.areas| + 1 && r.areas[..|s.areas|] == s.areas
    ensures var added := r.areas[|s.areas|];
      added.color == NewAreaColor && added == a.(color := added.color)
    ensures r.selectedAreaId == Some(a.id) && r.selectedCameraId.None?
    ensures !HasId(s.areas, AreaId, a.id) ==> SelectedArea(r) == Some(a.(color := NewAreaColor))
    ensures r.cameras == s.cameras && r.zoom == s.zoom && r.searchTerm == s.searchTerm
  {
    var added := a.(color := NewAreaColor);
    var r := s.(areas := s.areas + [added], selectedCameraId := None, selectedAreaId := Some(a.id));
    assert !HasId(s.areas, AreaId, a.id) ==> Find(r.areas, AreaId, a.id) == Some(added) by {
      if !HasId(s.areas, AreaId, a.id) { FindAppended(s.areas, AreaId, added); }
    }
    r
  }

  lemma DeleteUndoesAddArea(s: Scene, a: Area)
    requires !HasId(s.areas, AreaId, a.id)
    ensures DeleteArea(AddArea(s, a), a.id).areas == s.areas
  {
    RemoveUndoesAppend(s.areas, AreaId, a.(color := NewAreaColor));
  }

  // ------------------------------------------------------------ derived views

  /** The camera whose id fills the camera slot, if the list holds one. */
  function SelectedCamera(s: Scene): (r: Option<Camera>)
    ensures r.Some? ==> s.selectedCameraId == Some(r.value.id) && r.value in s.cameras
    ensures r.Some? ==> exists i :: 0 <= i < |s.cameras| && s.cameras[i] == r.value && !HasId(s.cameras[..i], CameraId, r.value.id)
    ensures r.None? <==> s.selectedCameraId.None? || !HasId(s.cameras, CameraId, s.selectedCameraId.value)
  {
    match s.selectedCameraId
    case None => None
    case Some(id) => Find(s.cameras, CameraId, id)
  }

  /** The area whose id fills the area slot, if the list holds one. */
  function SelectedArea(s: Scene): (r: Option<Area>)
    ensures r.Some? ==> s.selectedAreaId == Some(r.value.id) && r.value in s.areas
    ensures r.Some? ==> exists i :: 0 <= i < |s.areas| && s.areas[i] == r.value && !HasId(s.areas[..i], AreaId, r.value.id)
    ensures r.None? <==> s.selectedAreaId.None? || !HasId(s.areas, AreaId, s.selectedAreaId.value)
  {
    match s.selectedAreaId
    case None => None
    case Some(id) => Find(s.areas, AreaId, id)
  }

  function HasStatus(st: CameraStatus): Camera -> bool
  {
    (c: Camera) => c.status == st
  }

  /** Every camera has exactly one of the four statuses. */
  lemma {:induction false} StatusCountsSum(cams: seq<Camera>)
    ensures Count(cams, HasStatus(Active)) + Count(cams, HasStatus(Maintenance))
          + Count(cams, HasStatus(Offline)) + Count(cams, HasStatus(Suggested)) == |cams|
  {
    if |cams| > 0 {
      StatusCountsSum(cams[1..]);
    }
  }

  /** The device-list header: the total and one counter per status. */
  function ComputeStats(cams: seq<Camera>): (r: Stats)
    ensures r.total == |cams|
    ensures r.active + r.maintenance + r.offline + r.suggested == r.total
    ensures r.active == Count(cams, HasStatus(Active))
    ensures r.maintenance == Count(cams, HasStatus(Maintenance))
    ensures r.offline == Count(cams, HasStatus(Offline))
    ensures r.suggested == Count(cams, HasStatus(Suggested))
  {
    StatusCountsSum(cams);
    Stats(
      |cams|,
      |Filter(cams, HasStatus(Active))|,
      |Filter(cams, HasStatus(Maintenance))|,
      |Filter(cams, HasStatus(Offline))|,
      |Filter(cams, HasStatus(Suggested))|)
  }

  lemma {:induction false} CountAppend<T>(xs: seq<T>, p: T -> bool, x: T)
    ensures Count(xs + [x], p) == Count(xs, p) + (if p(x) then 1 else 0)
  {
    if |xs| == 0 {
      assert [x][1..] == [];
    } else {
      assert (xs + [x])[1..] == xs[1..] + [x];
      CountAppend(xs[1..], p, x);
    }
  }

  /** A new camera adds one to the total and one to the Active counter. */
  lemma StatsAfterAddCamera(s: Scene, newId: Id, today: string)
    ensures var before := ComputeStats(s.cameras);
      var after := ComputeStats(AddCamera(s, newId, today).cameras);
      after == before.(total := before.total + 1, active := before.active + 1)
  {
    var c := NewCamera(newId, today);
    assert AddCamera(s, newId, today).cameras == s.cameras + [c];
    CountAppend(s.cameras, HasStatus(Active), c);
    CountAppend(s.cameras, HasStatus(Maintenance), c);
    CountAppend(s.cameras, HasStatus(Offline), c);
    CountAppend(s.cameras, HasStatus(Suggested), c);
  }

  /** Case-insensitive substring match of the search term in the name. */
  function MatchesSearch(term: string): Camera -> bool
  {
    (c: Camera) => Text.Includes(Text.Lower(c.name), Text.Lower(term))
  }

  /** The device list: the cameras whose name contains the term, ignoring
      case, in list order. */
  function FilteredCameras(cams: seq<Camera>, term: string): (r: seq<Camera>)
    ensures IsSubsequence(r, cams)
    ensures forall c :: c in r <==> c in cams && Text.Includes(Text.Lower(c.name), Text.Lower(term))
    ensures |r| == Count(cams, MatchesSearch(term))
  {
    Filter(cams, MatchesSearch(term))
  }

  /** An empty search term lists every camera. */
  lemma EmptySearchListsAll(cams: seq<Camera>)
    ensures FilteredCameras(cams, "") == cams
  {
    forall i | 0 <= i < |cams|
      ensures MatchesSearch("")(cams[i])
    {
      Text.IncludesEmpty(Text.Lower(cams[i].name));
    }
    FilterKeepsAll(cams, MatchesSearch(""));
  }

  /** Searching for a term and for its lower-case form list the same cameras. */
  lemma SearchIgnoresCase(cams: seq<Camera>, term: string)
    ensures FilteredCameras(cams, term) == FilteredCameras(cams, Text.Lower(term))
  {
    Text.LowerIdempotent(term);
    assert MatchesSearch(term) == MatchesSearch(Text.Lower(term));
  }
}

=== FILE: text.dfy ===
/** The three string operations the scene relies on: `toLowerCase`,
    `includes`, and the decimal rendering of a count inside a template
    literal. */
module Text {

  /** Upper-case letters of Basic Latin and of the Latin-1 Supplement
      (the Portuguese capitals among them). */
  predicate IsUpper(c: char)
  {
    ('A' <= c <= 'Z') || ('\U{C0}' <= c <= '\U{DE}' && c != '\U{D7}')
  }

  /** `toLowerCase` on one character of the alphabet above. */
  function LowerChar(c: char): (r: char)
    ensures !IsUpper(r)
    ensures !IsUpper(c) ==> r == c
    ensures IsUpper(c) ==> r as int == c as int + 32
  {
    if IsUpper(c) then (c as int + 32) as char else c
  }

  function Lower(s: string): (r: string)
    ensures |r| == |s|
    ensures forall i :: 0 <= i < |s| ==> r[i] == LowerChar(s[i])
  {
    seq(|s|, i requires 0 <= i < |s| => LowerChar(s[i]))
  }

  /** Lower-casing twice is lower-casing once. */
  lemma LowerIdempotent(s: string)
    ensures Lower(Lower(s)) == Lower(s)
  {
  }

  predicate StartsWith(s: string, prefix: string)
  {
    |prefix| <= |s| && s[..|prefix|] == prefix
  }

  /** `hay.includes(needle)`, scanning start positions left to right. */
  predicate Includes(hay: string, needle: string)
    decreases |hay|
  {
    StartsWith(hay, needle) || (|hay| > 0 && Includes(hay[1..], needle))
  }

  /** `needle` occurs in `hay` starting at index `i`. */
  predicate OccursAt(hay: string, needle: string, i: int)
  {
    0 <= i && i + |needle| <= |hay| && hay[i..i + |needle|] == needle
  }

  /** The scan agrees with the positional definition of a substring. */
  lemma {:induction false} IncludesIffOccurs(hay: string, needle: string)
    ensures Includes(hay, needle) <==> exists i :: OccursAt(hay, needle, i)
    decreases |hay|
  {
    if StartsWith(hay, needle) {
      assert OccursAt(hay, needle, 0);
    }
    if |hay| > 0 {
      IncludesIffOccurs(hay[1..], needle);
      if Includes(hay[1..], needle) {
        var i :| OccursAt(hay[1..], needle, i);
        assert hay[i + 1..i + 1 + |needle|] == hay[1..][i..i + |needle|];
        assert OccursAt(hay, needle, i + 1);
      }
      if exists i :: OccursAt(hay, needle, i) {
        var i :| OccursAt(hay, needle, i);
        if i > 0 {
          assert hay[1..][i - 1..i - 1 + |needle|] == hay[i..i + |needle|];
          assert OccursAt(hay[1..], needle, i - 1);
        } else {
          assert StartsWith(hay, needle);
        }
      }
    } else {
      if exists i :: OccursAt(hay, needle, i) {
        var i :| OccursAt(hay, needle, i);
        assert i == 0 && |needle| == 0;
        assert StartsWith(hay, needle);
      }
    }
  }

  /** Every string includes the empty string. */
  lemma IncludesEmpty(hay: string)
    ensures Includes(hay, "")
  {
    assert StartsWith(hay, "");
  }

  predicate IsDigit(c: char) { '0' <= c <= '9' }

  function DigitChar(d: nat): (r: char)
    requires d < 10
    ensures IsDigit(r)
  {
    ('0' as int + d) as char
  }

  /** `${n}` for a non-negative integer: decimal digits, no leading zero. */
  function DecimalString(n: nat): (r: string)
    ensures |r| > 0
    ensures forall i :: 0 <= i < |r| ==> IsDigit(r[i])
    ensures |r| > 1 ==> r[0] != '0'
    decreases n
  {
    if n < 10 then [DigitChar(n)] else DecimalString(n / 10) + [DigitChar(n % 10)]
  }

  /** The number a string of decimal digits denotes. */
  function DecimalValue(s: string): nat
    requires forall i :: 0 <= i < |s| ==> IsDigit(s[i])
    decreases |s|
  {
    if |s| == 0 then 0
    else
      assert IsDigit(s[|s| - 1]);
      10 * DecimalValue(s[..|s| - 1]) + (s[|s| - 1] as int - '0' as int)
  }

  /** Reading the rendered digits back gives the number. */
  lemma {:induction false} DecimalRoundTrip(n: nat)
    ensures DecimalValue(DecimalString(n)) == n
    decreases n
  {
    var r := DecimalString(n);
    if n >= 10 {
      DecimalRoundTrip(n / 10);
      assert r[..|r| - 1] == DecimalString(n / 10);
    }
  }

  /** Distinct numbers render differently. */
  lemma DecimalStringInjective(a: nat, b: nat)
    requires DecimalString(a) == DecimalString(b)
    ensures a == b
  {
    DecimalRoundTrip(a);
    DecimalRoundTrip(b);
  }
}

=== FILE: types.dfy ===
/** Record shapes of the floor-plan scene: cameras, areas (zones) and the
    per-status statistics shown in the device list. Percentages are `real`;
    the slider-driven camera attributes are integers because every value
    they ever receive is an integer literal or a parsed slider position. */
module Types {

  /** `T | null` */
  datatype Option<T> = None | Some(value: T)

  type Id = string

  /** The string union `'Active' | 'Maintenance' | 'Offline' | 'Suggested'`. */
  datatype CameraStatus = Active | Maintenance | Offline | Suggested

  /** The literal spelling of each status, as used for the `<option>` values. */
  function StatusName(s: CameraStatus): string
  {
    match s
    case Active => "Active"
    case Maintenance => "Maintenance"
    case Offline => "Offline"
    case Suggested => "Suggested"
  }

  /** Reads a status literal back; every other string is not a status. */
  function ParseStatus(s: string): (r: Option<CameraStatus>)
    ensures r.Some? <==> s in {"Active", "Maintenance", "Offline", "Suggested"}
    ensures r.Some? ==> StatusName(r.value) == s
  {
    if s == "Active" then Some(Active)
    else if s == "Maintenance" then Some(Maintenance)
    else if s == "Offline" then Some(Offline)
    else if s == "Suggested" then Some(Suggested)
    else None
  }

  /** The four literals are distinct and each names exactly one status. */
  lemma StatusNameRoundTrip(s: CameraStatus)
    ensures ParseStatus(StatusName(s)) == Some(s)
  {
  }

  datatype Camera = Camera(
    id: Id,
    name: string,
    status: CameraStatus,
    x: real,               // percentage of the plan's width
    y: real,               // percentage of the plan's height
    rotation: int,         // degrees
    fovAngle: int,         // degrees
    reach: int,            // pixels
    iconSize: int,         // pixels
    observations: string,
    installDate: string,
    lastMaintenance: Option<string>)

  /** `type` is a Dafny keyword, so the area's free-form tag is `kind`. */
  datatype Area = Area(
    id: Id,
    name: string,
    x: real,
    y: real,
    width: real,
    height: real,
    kind: string,
    color: string)

  /** The five counters of the device list header. */
  datatype Stats = Stats(total: nat, active: nat, maintenance: nat, offline: nat, suggested: nat)

  function CameraId(c: Camera): Id { c.id }

  function AreaId(a: Area): Id { a.id }

  predicate InPercent(v: real) { 0.0 <= v <= 100.0 }

  /** The documented numeric domains of a camera: position in percent,
      rotation in [0,360], lens angle in [10,180], icon size in [20,100],
      and reach within the bounds its slider offers, [10,500]. */
  predicate ValidCamera(c: Camera)
  {
    && InPercent(c.x) && InPercent(c.y)
    && 0 <= c.rotation <= 360
    && 10 <= c.fovAngle <= 180
    && 10 <= c.reach <= 500
    && 20 <= c.iconSize <= 100
  }

  predicate AllValid(cams: seq<Camera>)
  {
    forall i :: 0 <= i < |cams| ==> ValidCamera(cams[i])
  }
}
